=== FILE: README.md ===
# Storefront cart, stock and order core in Dafny

This project models the core of a Laravel storefront. A signed-in user keeps
one cart of product lines and adds, updates, removes and clears lines
against the products' stock. The cart prices itself as a subtotal, a tax at
a configured rate and a total. At checkout the cart is validated and turned
into payment line items. Once the payment is confirmed, the cart becomes a
placed order: its prices are frozen, each product's stock is decremented,
a low-stock signal is raised at or below a threshold, and the cart is
cleared. A daily report sums the units and revenue of the day's placed
orders and ranks the ten best-selling products.

The model is written in integer cents and pure functions over an immutable
`Store`. The store holds the products table, the users with a cart row, the
cart_items rows in id order, the orders in id order, and the next ids. Every
transaction returns the store afterwards together with a `Result`. A failing
transaction returns the store it was given, which is the rollback of the
database transaction.

| module | file | what it holds |
|---|---|---|
| `Seqs` | seqs.dfy | filtering rows, finding the first matching row, distinctness |
| `Domain` | domain.dfy | products, cart lines, orders, the store, configuration, errors, sums over order lines |
| `Money` | money.dfy | rounding to whole cents, half away from zero |
| `CartPricing` | pricing.dfy | subtotal, tax and total of a cart |
| `Inventory` | inventory.dfy | stock check, stock decrement with the low-stock signal, related products |
| `Carts` | carts.dfy | the cart service's operations and the invariant they keep |
| `Orders` | orders.dfy | turning a cart into a placed order |
| `Checkout` | checkout.dfy | checkout validation, payment line items, the paid-checkout sequence |
| `SalesReport` | sales.dfy | the day's sales, grouping by product, ranking, the report |

Notes on the code as written:

- `createOrderFromCart` does not check the stock again, and it does not
  refuse an empty cart. It creates the order from whatever lines it is
  handed, and it skips lines whose product is gone.
  `Orders.CreateOrderFromCart` models this as written.
- The paid-checkout handler (`success` in CheckoutController.php) loads the
  cart as it is at that moment and places the order from it. It refuses only
  a user without a cart row. `validateCartForCheckout` runs in `process`,
  an earlier request made before the payment. Nothing is re-checked in
  between. So the handler places orders from carts that were never
  validated in their current state:
  - A reloaded success page places a second order, with no lines and a
    total of zero (`Checkout.EmptyCartPlacesEmptyOrder`).
  - Two carts validated against the same stock can both be ordered. The
    service code does nothing to stop the stock from going below zero, so
    in the model the stock ends at -1 (`Checkout.ConcurrentCheckoutsOversell`).
    Whether the database accepts that depends on the column type, which is
    not part of this model (see "Left out").
  - `Checkout.ValidatedOrderKeepsStock` states the stock guarantee only for
    a cart that passes validation in the very state the order is placed
    from. The source does not ensure that this is the case.
- The service code of `decreaseStock` does nothing to stop the stock from
  going below zero. `Inventory.DecreaseStock` subtracts unconditionally. Its contract says
  that the stock stays in range only when the quantity fits.

## Model

| member | source | states |
|---|---|---|
| Money.RoundDiv | app/Models/Cart.php:84 | the result is the integer nearest to n/d; a half rounds away from zero, like PHP's `round` |
| Money.RoundDivUnique | app/Models/Cart.php:84 | RoundDiv's contract has exactly one solution, so the contract fully determines the rounding |
| Money.RoundDivExact | app/Models/Cart.php:92 | rounding an amount that is already in whole cents changes nothing, so the total's second `round` is the plain sum |
| CartPricing.Subtotal | app/Models/Cart.php:53-74 | with non-negative prices and quantities, the subtotal is never negative |
| CartPricing.Tax | app/Models/Cart.php:79-85 | the tax is the subtotal times the rate, rounded to the nearest cent with halves away from zero; it is non-negative when the subtotal and the rate are |
| CartPricing.CartTotals | app/Models/Cart.php:53-93 | the subtotal is the sum of the line amounts (Subtotal), the tax is that subtotal taxed and rounded, and the total is the subtotal plus the tax; an empty cart costs nothing; with non-negative inputs all three amounts are non-negative |
| CartPricing.SubtotalAppend | app/Models/Cart.php:62-73 | the subtotal of two runs of lines is the sum of their subtotals |
| CartPricing.SubtotalPermutation | app/Models/Cart.php:62-73 | any reordering of the cart lines has the same subtotal |
| CartPricing.SubtotalSkipsMissing | app/Models/Cart.php:67-70 | a line whose product is gone contributes nothing: the subtotal equals that of the lines whose product exists |
| CartPricing.DefaultRateExample | app/Models/Cart.php:79-93 | two units at 10.00 and one at 20.00 at the default 8.5 percent give 40.00, 3.40 and 43.40 |
| Inventory.DecreaseStock | app/Services/ProductService.php:80-92 | only the one product's stock changes, by exactly the quantity; a low-stock signal with the new stock is raised exactly when the new stock is at or below the threshold |
| Inventory.LowStockExamples | app/Services/ProductService.php:85-90 | at the default threshold of 10, 15 minus 6 signals stock 9, 15 minus 3 signals nothing, 15 minus 5 lands exactly on the threshold and signals stock 10, and one unit more signals stock 9 |
| Inventory.RelatedProducts | app/Services/ProductService.php:41-47 | never the product itself, no product twice, only products of the catalog, and as many as the limit allows out of all the others |
| Inventory.OtherProducts | app/Services/ProductService.php:43 | the products other than the given one, without repetition, each one of them |
| Inventory.RelatedProductsDefaultLimit | app/Services/ProductService.php:41 | the default limit of 4 with five other products yields four |
| Carts.GetOrCreateCart | app/Services/CartService.php:21-24 | afterwards the user has a cart; a user who had one sees no change, and no other user's cart or row is touched |
| Carts.GetCartWithItems | app/Services/CartService.php:30-40 | a view exists exactly when the user has a cart; it holds exactly the user's rows, each as many times as the table holds it (so no row is priced twice), and its totals are the pricing of those rows |
| Carts.AddItem | app/Services/CartService.php:45-79 | an unknown product gives NotFound; success holds exactly when both the requested quantity and the line's new quantity fit the stock, otherwise InsufficientStock with the store unchanged; on success the line holds the old quantity plus the new one and no other row changes |
| Carts.AddItemKeepsValid | app/Services/CartService.php:53-78 | adding keeps the cart invariant, including at most one line per product per cart; exactly that user's line for that product grows by the quantity |
| Carts.AddTwiceSumsQuantities | app/Services/CartService.php:56-61 | adding 2 and then 3 units of the same product leaves one line of 5 units |
| Carts.AddBeyondStockFails | app/Services/CartService.php:47-51 | asking for more than the stock, even for a product that is out of stock, fails with InsufficientStock and changes nothing |
| Carts.UpdateItem | app/Services/CartService.php:84-109 | a non-positive quantity gives InvalidQuantity before any lookup; a row outside the user's cart, or one whose product is gone, gives NotFound; success holds exactly when the quantity fits the stock; only that row changes |
| Carts.UpdateItemKeepsValid | app/Services/CartService.php:90-108 | updating keeps the cart invariant, and the updated line now holds exactly the new quantity while every other line keeps its own |
| Carts.ForeignItemNotFound | app/Services/CartService.php:91-119 | a row of another user's cart can be neither updated nor removed: NotFound with the store unchanged |
| Carts.RemoveItem | app/Services/CartService.php:114-123 | succeeds exactly when the row is in the user's cart, otherwise NotFound with the store unchanged; on success the rows left are the old rows other than that one |
| Carts.RemoveItemKeepsValid | app/Services/CartService.php:116-122 | removing keeps the invariant, deletes exactly one row, and leaves its owner with no line for its product |
| Carts.ClearCart | app/Services/CartService.php:128-135 | a user without a cart is left alone; otherwise no row of that user survives and every other user's row does |
| Carts.ClearCartKeepsValid | app/Services/CartService.php:128-135 | clearing keeps the invariant, empties the user's cart and leaves every other cart exactly as it was |
| Carts.CartHasOneLinePerProduct | app/Services/CartService.php:56-68 | in any store the cart operations maintain, no cart holds two lines for the same product |
| Orders.Materialize | app/Services/OrderService.php:63-78 | the loop over the cart writes one order line per line whose product exists; every low-stock signal names a catalog product at or below the threshold |
| Orders.MaterializeStock | app/Services/OrderService.php:76-77 | every product ends short by exactly the units that the cart holds of it, at an unchanged price |
| Orders.MaterializeLines | app/Services/OrderService.php:63-74 | the order lines are, in order, the cart lines whose product exists, each with the product's price at that moment |
| Orders.MaterializeSignals | app/Services/OrderService.php:76-77 | with one line per product, the signals are exactly those of decrementing each paid line's product in order |
| Orders.CreateOrderFromCart | app/Services/OrderService.php:47-82 | the new placed order carries the user, the payment intent and the cart's subtotal, tax and total; it is appended with the next order id; its lines are the snapshots of the lines with a product; the stock falls by the units ordered; with one line per product, the low-stock signals are exactly those of decrementing each ordered product in turn; the cart rows are not touched |
| Orders.OrderLinesMatchSubtotal | app/Services/OrderService.php:53-74 | the lines of a new order add up, at their frozen prices, to the order's subtotal |
| SalesReport.DailySalesIncludes | app/Services/OrderService.php:87-95 | every line of every placed order of the day is among the day's sales |
| SalesReport.DailySalesOnlyCounting | app/Services/OrderService.php:87-95 | every line among the day's sales comes from a placed order of that day |
| SalesReport.DailySalesTotals | app/Services/OrderService.php:87-107 | the day's sales lose no line and count none twice: their units and revenue are the sums, order by order, over the day's placed orders |
| SalesReport.DailyRevenueIsSubtotals | app/Services/OrderService.php:87-107 | when each order's lines are worth its subtotal, as those of an order created from a cart are, the day's revenue is the sum of the subtotals of the day's placed orders |
| SalesReport.EqualLinesBothCount | app/Services/OrderService.php:87-107 | two placed orders of the day, each selling one unit of the same product at 10.00, report two units and 20.00 |
| SalesReport.GroupByProductSummarises | app/Services/OrderService.php:109-122 | the grouping has exactly one entry per product sold, and each entry carries that product's units and revenue |
| SalesReport.GroupByProductConserves | app/Services/OrderService.php:104-122 | the entries' units and revenue add up to those of all the lines |
| SalesReport.InsertKeepsSorted | app/Services/OrderService.php:123 | inserting an entry into a ranking gives a ranking |
| SalesReport.SortByQuantityDesc | app/Services/OrderService.php:123 | the ranking is a permutation of the entries, in non-increasing order of units |
| SalesReport.TopProductsSelect | app/Services/OrderService.php:123-125 | the top entries are ranked, come from the entries, number ten or all of them when there are fewer, and no left-out entry sold more than a kept one |
| SalesReport.TopProductsOfDay | app/Services/OrderService.php:109-125 | the top entries of a day are ranked, number ten or one per product sold, and each carries its product's units and revenue |
| SalesReport.LeftOutSoldNoMore | app/Services/OrderService.php:123-124 | a product sold that day but left out of the top entries sold no more units than any of them |
| SalesReport.LineTotals | app/Services/OrderService.php:104-107 | the loop's sums are the units and the revenue of the lines |
| SalesReport.AggregateDailySales | app/Services/OrderService.php:100-133 | the report carries the day, the units and revenue of the day's placed orders (both as sums over the day's lines and as sums over the orders), and the top products: ranked, distinct, each with its true units and revenue, ten of them or one per product sold, none outranked by a left-out product |
| SalesReport.ReportExample | tests/Feature/DailySalesReportTest.php:62-140 | placed orders of 2 units at 10.00 and 1 unit at 20.00 on the day report 3 units and 40.00; a placed order on another day is left out, and so is a pending order, which the model adds to the test's orders |
| Checkout.ValidateCartForCheckout | app/Services/CheckoutService.php:24-46 | no cart or an empty cart gives EmptyCart; success holds exactly when every line has a product with enough stock, and returns the cart's lines; otherwise, for a non-empty cart, the first failing line decides the error, a missing product before a stock shortage |
| Checkout.BuildStripeLineItems | app/Services/CheckoutService.php:53-94 | the product payment lines come first, exactly as the product charges of the cart; one tax line of quantity one follows exactly when the tax is positive, and it can only be last; with no positive tax there are only the product lines |
| Checkout.ProductChargesMatchLines | app/Services/CheckoutService.php:57-75 | the product payment lines match, in order, the cart lines with a product: same product, same quantity, the product's price |
| Checkout.ProductChargesMatchSubtotal | app/Services/CheckoutService.php:57-75 | the product payment lines charge exactly the cart's subtotal |
| Checkout.StripeChargesMatchTotal | app/Services/CheckoutService.php:53-94 | the payment session charges the subtotal plus any positive tax; with non-negative prices, quantities and rate this is the cart's total |
| Checkout.ValidatedOrderKeepsStock | app/Services/CheckoutService.php:32-43 | an order placed from a cart that passes validation in that same state leaves every stock between zero and its old value |
| Checkout.PaidCheckout | app/Http/Controllers/CheckoutController.php:66-81 | a user without a cart row is refused with nothing changed; otherwise an order is placed from the cart as it is now: it carries the session's payment intent and today's date, the cart's subtotal, tax and total, and one line per cart line whose product exists, with that product, quantity and current price; it is recorded after the existing orders, and every product's stock falls by the units the cart holds of it |
| Checkout.PaidCheckoutClearsCart | app/Http/Controllers/CheckoutController.php:66-81 | for any cart row, validated or not, the paid checkout keeps the invariant, empties the user's cart, leaves every other cart alone, and writes one order line per cart line whose product still exists |
| Checkout.ValidatedCheckoutOrdersEveryLine | app/Http/Controllers/CheckoutController.php:66-81 | when the cart still passes validation at the paid checkout, every cart line becomes an order line |
| Checkout.EmptyCartPlacesEmptyOrder | app/Http/Controllers/CheckoutController.php:66-81 | a paid checkout with a cart row but no lines, such as a reloaded success page, places a further order with no lines and a total of zero |
| Checkout.ConcurrentCheckoutsOversell | app/Http/Controllers/CheckoutController.php:38-78 | two carts of 2 and 4 units both pass validation against a stock of 5, and their paid checkouts take the model's unbounded stock to -1, since the service code does not check the stock again |

## Left out

- Payment provider calls (creating and retrieving the checkout session, the `paid` status check) are calls into a foreign SDK; the model takes the outcome as given.
- Controllers, routes, redirects, flash messages and the mapping of errors to responses are not modelled, apart from the paid-checkout handler's own steps (`Checkout.PaidCheckout`). The services' exceptions are the `Error` constructors, and the handler's "Cart not found" is `NotFound`.
- The low-stock notification job, mails and the report command are not modelled, and neither is parsing the command's date. The model ends at the low-stock signal and at the report value.
- Product listing, search, pagination, `getProduct`, bestsellers and new arrivals are plain queries without logic worth proving.
- `getUserOrders` and `getUserOrder` are paginated and filtered reads; they are not modelled.
- Inventory.RelatedProducts: the database's random order is a parameter (any ordering of the catalog), so randomness itself is not modelled; a negative limit is read as no limit.
- Prices are floats in the source; the model uses exact integer cents, so float rounding and the `(int)(x * 100)` truncation of payment amounts are not modelled.
- The tax rate is a float percentage in the source (config/ecommerce.php:38); the model takes it as a whole number of basis points, so a rate finer than a hundredth of a percent (such as 8.125 percent) cannot be expressed.
- Checkout.BuildStripeLineItems: the currency, product name and description of each payment line are not modelled.
- Checkout.ValidateCartForCheckout: the stock-shortage error carries the product id, not the product's name.
- Column types and database constraints are not modelled; stock is an unbounded int, so a schema that rejects negative stock would make the second order of `Checkout.ConcurrentCheckoutsOversell` fail, rolling its transaction back, instead of leaving the stock at -1.
- Row locking is not modelled; each transaction is atomic. Requests that interleave are modelled as a sequence of whole transactions.
- Carts have no ids of their own in the model: a user stands for their cart, since each user has at most one.
- Inventory.CheckStockAvailability: app/Models/Product.php is not part of this model, so `isInStock` is taken by definition as "quantity at most the stock"; the callers' contracts state that inequality directly.
- Carts.AddItem: requires a quantity of at least one. The request class that validates this before `addItem` runs is not part of this model.
- SalesReport.SortByQuantityDesc: the sort is stable by construction (it inserts after equal entries), but stability is not proved.
- SalesReport.GroupByProductSummarises: groups appear in the order their products first occur, but that order is not proved.
- Orders.CreateOrderFromCart: the created-at timestamp is reduced to its day, which is all the report reads.

=== FILE: carts.dfy ===
/** The cart service: a state machine over the cart_items rows. Every
    mutating operation is one transaction: it either commits a new store or
    fails and hands back the store it was given. */
module Carts {

  import opened Domain
  import opened Seqs
  import Inventory
  import CartPricing

  /** Two rows are lines of the same user's cart for the same product. */
  predicate SameLine(a: CartItem, b: CartItem) {
    a.owner == b.owner && a.productId == b.productId
  }

  /** The invariant the cart operations maintain: row ids are below the
      next id and ascend, quantities are positive, every row's owner has a
      cart, and each cart has at most one line per product. */
  predicate Valid(s: Store) {
    && (forall i :: 0 <= i < |s.items| ==>
          s.items[i].id < s.nextItemId && s.items[i].quantity >= 1 && s.items[i].owner in s.carts)
    && (forall i, j :: 0 <= i < j < |s.items| ==> s.items[i].id < s.items[j].id)
    && (forall i, j :: 0 <= i < j < |s.items| ==> !SameLine(s.items[i], s.items[j]))
  }

  /** The store with a cart for `user`: the existing one when there is one,
      otherwise a new one (firstOrCreate). */
  function GetOrCreateCart(s: Store, user: UserId): (r: Store)
    ensures user in r.carts && r.carts - {user} == s.carts - {user}
    ensures user in s.carts ==> r == s
    ensures r.items == s.items && r.catalog == s.catalog && r.orders == s.orders
    ensures r.nextItemId == s.nextItemId && r.nextOrderId == s.nextOrderId
  {
    s.(carts := s.carts + {user})
  }

  /** The rows of `user`'s cart, in id order. */
  function LinesOf(items: seq<CartItem>, user: UserId): seq<CartItem> {
    Filter(items, (x: CartItem) => x.owner == user)
  }

  /** A user's cart as loaded for display and checkout, with its totals. */
  datatype CartView = CartView(lines: seq<CartItem>, totals: CartPricing.Totals)

  /** The user's cart with its lines and totals, or nothing when the user
      has no cart. */
  function GetCartWithItems(s: Store, user: UserId, cfg: Config): (r: Option<CartView>)
    ensures r.Some? <==> user in s.carts
    ensures r.Some? ==> forall i :: 0 <= i < |r.value.lines| ==> r.value.lines[i].owner == user && r.value.lines[i] in s.items
    ensures r.Some? ==> forall i :: 0 <= i < |s.items| && s.items[i].owner == user ==> s.items[i] in r.value.lines
    ensures r.Some? ==> forall x :: multiset(r.value.lines)[x] == if x.owner == user then multiset(s.items)[x] else 0
    ensures r.Some? ==> r.value.totals == CartPricing.CartTotals(s.catalog, r.value.lines, cfg)
  {
    if user in s.carts then
      var lines := LinesOf(s.items, user);
      FilterCounts(s.items, (x: CartItem) => x.owner == user);
      Some(CartView(lines, CartPricing.CartTotals(s.catalog, lines, cfg)))
    else None
  }

  /** Index of `user`'s line for `pid`: the first such row. */
  function FindLine(items: seq<CartItem>, user: UserId, pid: ProductId): Option<nat> {
    FirstIndex(items, (x: CartItem) => x.owner == user && x.productId == pid)
  }

  /** Units of `pid` in `user`'s cart according to its line, 0 without one. */
  function Held(items: seq<CartItem>, user: UserId, pid: ProductId): int {
    match FindLine(items, user, pid)
    case Some(i) => items[i].quantity
    case None => 0
  }

  /** addItem: puts `quantity` units of `pid` into `user`'s cart. An unknown
      product fails with NotFound. The requested quantity alone, and then
      the quantity the line would hold afterwards, must both be within stock,
      else InsufficientStock. On success an existing line gets the sum and no
      second line appears; otherwise a new line is appended. The cart is
      created on the way, and that too is undone when the stock check fails. */
  function AddItem(s: Store, user: UserId, pid: ProductId, quantity: int): (r: Step<CartItem>)
    requires quantity >= 1
    ensures r.result.Err? ==> r.store == s
    ensures pid !in s.catalog ==> r.result == Err(NotFound)
    ensures pid in s.catalog ==>
      (r.result.Ok? <==> quantity <= s.catalog[pid].stock && Held(s.items, user, pid) + quantity <= s.catalog[pid].stock)
    ensures pid in s.catalog && r.result.Err? ==> r.result.error == InsufficientStock
    ensures r.result.Ok? ==>
      var item := r.result.value;
      && item.owner == user && item.productId == pid
      && item.quantity == Held(s.items, user, pid) + quantity
      && item.quantity <= s.catalog[pid].stock
      && item in r.store.items
      && r.store.carts == s.carts + {user}
      && r.store.catalog == s.catalog && r.store.orders == s.orders && r.store.nextOrderId == s.nextOrderId
      && (forall x :: x in s.items && !SameLine(x, item) ==> x in r.store.items)
      && (forall x :: x in r.store.items && x != item ==> x in s.items)
  {
    if pid !in s.catalog then Step(s, Err(NotFound))
    else
      var product := s.catalog[pid];
      if !Inventory.CheckStockAvailability(product, quantity) then Step(s, Err(InsufficientStock))
      else
        var withCart := GetOrCreateCart(s, user);
        match FindLine(withCart.items, user, pid)
        case Some(i) =>
          var item := withCart.items[i].(quantity := withCart.items[i].quantity + quantity);
          if !Inventory.CheckStockAvailability(product, item.quantity) then Step(s, Err(InsufficientStock))
          else
            ReplaceKeepsOthers(withCart.items, i, item);
            Step(withCart.(items := withCart.items[i := item]), Ok(item))
        case None =>
          var item := CartItem(withCart.nextItemId, user, pid, quantity);
          if !Inventory.CheckStockAvailability(product, item.quantity) then Step(s, Err(InsufficientStock))
          else Step(withCart.(items := withCart.items + [item], nextItemId := withCart.nextItemId + 1), Ok(item))
  }

  lemma ReplaceKeepsOthers(items: seq<CartItem>, i: nat, item: CartItem)
    requires i < |items|
    ensures item in items[i := item]
    ensures forall x :: x in items && x != items[i] ==> x in items[i := item]
    ensures forall x :: x in items[i := item] && x != item ==> x in items
  {
    assert items[i := item][i] == item;
    forall x | x in items && x != items[i] ensures x in items[i := item] {
      var k :| 0 <= k < |items| && items[k] == x;
      assert items[i := item][k] == x;
    }
  }

  /** Index of row `itemId` when it belongs to `user`'s cart. */
  function FindOwned(items: seq<CartItem>, user: UserId, itemId: CartItemId): Option<nat> {
    FirstIndex(items, (x: CartItem) => x.id == itemId && x.owner == user)
  }

  /** The rows with every row `itemId` given quantity `quantity` (a save by
      primary key). */
  function SetQuantity(items: seq<CartItem>, itemId: CartItemId, quantity: int): (r: seq<CartItem>)
    ensures |r| == |items|
    ensures forall j :: 0 <= j < |r| ==> r[j].id == items[j].id && r[j].owner == items[j].owner && r[j].productId == items[j].productId
    ensures forall j :: 0 <= j < |r| ==> r[j].quantity == if items[j].id == itemId then quantity else items[j].quantity
  {
    seq(|items|, j requires 0 <= j < |items| =>
      if items[j].id == itemId then items[j].(quantity := quantity) else items[j])
  }

  /** updateItem: sets the quantity of row `itemId`. A non-positive quantity
      fails with InvalidQuantity before anything is looked up; a row outside
      `user`'s cart, or one whose product is gone, fails with NotFound; a
      quantity above stock fails with InsufficientStock. On success only that
      row changes. */
  function UpdateItem(s: Store, user: UserId, itemId: CartItemId, quantity: int): (r: Step<CartItem>)
    ensures r.result.Err? ==> r.store == s
    ensures quantity <= 0 ==> r.result == Err(InvalidQuantity)
    ensures quantity > 0 && FindOwned(s.items, user, itemId).None? ==> r.result == Err(NotFound)
    ensures (quantity > 0 && FindOwned(s.items, user, itemId).Some?
             && s.items[FindOwned(s.items, user, itemId).value].productId !in s.catalog)
      ==> r.result == Err(NotFound)
    ensures (r.result.Err? && quantity > 0 && FindOwned(s.items, user, itemId).Some?
             && s.items[FindOwned(s.items, user, itemId).value].productId in s.catalog)
      ==> r.result.error == InsufficientStock
    ensures r.result.Ok? <==>
      && quantity > 0
      && FindOwned(s.items, user, itemId).Some?
      && s.items[FindOwned(s.items, user, itemId).value].productId in s.catalog
      && quantity <= s.catalog[s.items[FindOwned(s.items, user, itemId).value].productId].stock
    ensures r.result.Ok? ==>
      var before := s.items[FindOwned(s.items, user, itemId).value];
      && r.result.value == before.(quantity := quantity)
      && r.store.catalog == s.catalog && r.store.carts == s.carts && r.store.orders == s.orders
      && r.store.nextItemId == s.nextItemId && r.store.nextOrderId == s.nextOrderId
      && |r.store.items| == |s.items|
      && (forall j :: 0 <= j < |s.items| && s.items[j].id != itemId ==> r.store.items[j] == s.items[j])
      && (forall j :: 0 <= j < |s.items| && s.items[j].id == itemId ==> r.store.items[j] == s.items[j].(quantity := quantity))
  {
    if quantity <= 0 then Step(s, Err(InvalidQuantity))
    else match FindOwned(s.items, user, itemId)
      case None => Step(s, Err(NotFound))
      case Some(i) =>
        var item := s.items[i];
        if item.productId !in s.catalog then Step(s, Err(NotFound))
        else if !Inventory.CheckStockAvailability(s.catalog[item.productId], quantity) then Step(s, Err(InsufficientStock))
        else Step(s.(items := SetQuantity(s.items, itemId, quantity)), Ok(item.(quantity := quantity)))
  }

  /** removeItem: deletes row `itemId` from `user`'s cart, or fails with
      NotFound when the row is not in that cart. */
  function RemoveItem(s: Store, user: UserId, itemId: CartItemId): (r: Step<()>)
    ensures r.result.Err? ==> r.store == s && r.result.error == NotFound
    ensures r.result.Ok? <==> FindOwned(s.items, user, itemId).Some?
    ensures r.result.Ok? ==>
      && r.store.catalog == s.catalog && r.store.carts == s.carts && r.store.orders == s.orders
      && r.store.nextItemId == s.nextItemId && r.store.nextOrderId == s.nextOrderId
      && (forall x :: x in r.store.items ==> x in s.items && x.id != itemId)
      && (forall x :: x in s.items && x.id != itemId ==> x in r.store.items)
  {
    match FindOwned(s.items, user, itemId)
    case None => Step(s, Err(NotFound))
    case Some(_) => Step(s.(items := Filter(s.items, (x: CartItem) => x.id != itemId)), Ok(()))
  }

  /** clearCart: deletes every line of `user`'s cart and no other row; a
      user without a cart is left alone. */
  function ClearCart(s: Store, user: UserId): (r: Store)
    ensures user !in s.carts ==> r == s
    ensures r.catalog == s.catalog && r.carts == s.carts && r.orders == s.orders
    ensures r.nextItemId == s.nextItemId && r.nextOrderId == s.nextOrderId
    ensures user in s.carts ==> forall x :: x in r.items ==> x in s.items && x.owner != user
    ensures forall x :: x in s.items && x.owner != user ==> x in r.items
  {
    if user in s.carts then s.(items := Filter(s.items, (x: CartItem) => x.owner != user)) else s
  }

  // ---------------------------------------------------------------------
  // Properties of the cart state machine

  /** Rewriting quantities leaves every line where it was. */
  lemma FindLineSameRows(a: seq<CartItem>, b: seq<CartItem>, user: UserId, pid: ProductId)
    requires |a| == |b|
    requires forall j :: 0 <= j < |a| ==> a[j].owner == b[j].owner && a[j].productId == b[j].productId
    ensures FindLine(a, user, pid) == FindLine(b, user, pid)
  {
    var fa := FindLine(a, user, pid);
    var fb := FindLine(b, user, pid);
    if fa.Some? && fb.Some? {
      assert !(fa.value < fb.value) && !(fb.value < fa.value);
    }
  }

  /** Appending a row only matters for a query that had no line before. */
  lemma FindLineAppend(a: seq<CartItem>, x: CartItem, user: UserId, pid: ProductId)
    ensures FindLine(a + [x], user, pid) ==
      if FindLine(a, user, pid).Some? then FindLine(a, user, pid)
      else if x.owner == user && x.productId == pid then Some(|a|)
      else None
  {
    var f := FindLine(a, user, pid);
    var g := FindLine(a + [x], user, pid);
    assert forall j :: 0 <= j < |a| ==> (a + [x])[j] == a[j];
    assert (a + [x])[|a|] == x;
    if f.Some? && g.Some? {
      assert !(f.value < g.value) && !(g.value < f.value);
    }
  }

  /** addItem keeps the invariant, so in particular a cart never holds two
      lines for one product, and it adds exactly `quantity` units to the
      line of (`user`, `pid`) while every other line keeps its quantity. */
  lemma {:induction false} AddItemKeepsValid(s: Store, user: UserId, pid: ProductId, quantity: int)
    requires Valid(s) && quantity >= 1 && AddItem(s, user, pid, quantity).result.Ok?
    ensures Valid(AddItem(s, user, pid, quantity).store)
    ensures forall u, p ::
      Held(AddItem(s, user, pid, quantity).store.items, u, p) == Held(s.items, u, p) + (if u == user && p == pid then quantity else 0)
  {
    var r := AddItem(s, user, pid, quantity);
    match FindLine(s.items, user, pid)
    case Some(i) =>
      assert r.store == s.(carts := s.carts + {user}, items := s.items[i := s.items[i].(quantity := s.items[i].quantity + quantity)]);
      AddToLineKeepsValid(s, user, pid, quantity, i);
    case None =>
      var item := CartItem(s.nextItemId, user, pid, quantity);
      assert r.store == s.(carts := s.carts + {user}, items := s.items + [item], nextItemId := s.nextItemId + 1);
      AddNewLineKeepsValid(s, user, pid, quantity);
  }

  /** The case of AddItemKeepsValid where the cart already has a line for
      the product: that line grows by `quantity`. */
  lemma AddToLineKeepsValid(s: Store, user: UserId, pid: ProductId, quantity: int, i: nat)
    requires Valid(s) && quantity >= 1 && FindLine(s.items, user, pid) == Some(i)
    ensures var after := s.items[i := s.items[i].(quantity := s.items[i].quantity + quantity)];
      && Valid(s.(carts := s.carts + {user}, items := after))
      && forall u, p :: Held(after, u, p) == Held(s.items, u, p) + (if u == user && p == pid then quantity else 0)
  {
    var items := s.items;
    var after := items[i := items[i].(quantity := items[i].quantity + quantity)];
    assert forall u, p :: Held(after, u, p) == Held(items, u, p) + (if u == user && p == pid then quantity else 0) by {
      forall u, p
        ensures Held(after, u, p) == Held(items, u, p) + (if u == user && p == pid then quantity else 0)
      {
        FindLineSameRows(items, after, u, p);
      }
    }
    assert forall j, k :: 0 <= j < k < |after| ==> !SameLine(after[j], after[k]) by {
      forall j, k | 0 <= j < k < |after| ensures !SameLine(after[j], after[k]) {
        assert SameLine(after[j], after[k]) == SameLine(items[j], items[k]);
      }
    }
  }

  /** The case of AddItemKeepsValid where the cart has no line for the
      product: a new line with the next id is appended. */
  lemma AddNewLineKeepsValid(s: Store, user: UserId, pid: ProductId, quantity: int)
    requires Valid(s) && quantity >= 1 && FindLine(s.items, user, pid).None?
    ensures var item := CartItem(s.nextItemId, user, pid, quantity);
      var after := s.items + [item];
      && Valid(s.(carts := s.carts + {user}, items := after, nextItemId := s.nextItemId + 1))
      && forall u, p :: Held(after, u, p) == Held(s.items, u, p) + (if u == user && p == pid then quantity else 0)
  {
    var items := s.items;
    var item := CartItem(s.nextItemId, user, pid, quantity);
    var after := items + [item];
    forall u, p
      ensures Held(after, u, p) == Held(items, u, p) + (if u == user && p == pid then quantity else 0)
    {
      FindLineAppend(items, item, u, p);
      assert after[|items|] == item;
    }
    forall j, k | 0 <= j < k < |after| ensures !SameLine(after[j], after[k]) && after[j].id < after[k].id {
      if k == |items| {
        assert after[j] == items[j];
      } else {
        assert after[j] == items[j] && after[k] == items[k];
      }
    }
  }

  /** Adding 2 units and then 3 units of a product the cart does not hold
      yet, with a stock of at least 5, leaves one line of 5 units. */
  lemma AddTwiceSumsQuantities(s: Store, user: UserId, pid: ProductId)
    requires Valid(s) && pid in s.catalog && s.catalog[pid].stock >= 5
    requires Held(s.items, user, pid) == 0
    ensures AddItem(s, user, pid, 2).result.Ok?
    ensures AddItem(AddItem(s, user, pid, 2).store, user, pid, 3).result.Ok?
    ensures AddItem(AddItem(s, user, pid, 2).store, user, pid, 3).result.value.quantity == 5
    ensures Held(AddItem(AddItem(s, user, pid, 2).store, user, pid, 3).store.items, user, pid) == 5
  {
    AddItemKeepsValid(s, user, pid, 2);
    var s1 := AddItem(s, user, pid, 2).store;
    AddItemKeepsValid(s1, user, pid, 3);
  }

  /** A stock of 5 refuses 10 units, and a product out of stock refuses even
      one: the call fails and the store stays as it was. */
  lemma AddBeyondStockFails(s: Store, user: UserId, pid: ProductId, quantity: int)
    requires pid in s.catalog && quantity >= 1 && s.catalog[pid].stock < quantity
    ensures AddItem(s, user, pid, quantity) == Step(s, Err(InsufficientStock))
  {
  }

  /** updateItem keeps the invariant; the updated row's line now holds
      exactly `quantity` units and every other line keeps its quantity. */
  lemma {:induction false} UpdateItemKeepsValid(s: Store, user: UserId, itemId: CartItemId, quantity: int)
    requires Valid(s) && UpdateItem(s, user, itemId, quantity).result.Ok?
    ensures Valid(UpdateItem(s, user, itemId, quantity).store)
    ensures var item := UpdateItem(s, user, itemId, quantity).result.value;
      forall u, p ::
        Held(UpdateItem(s, user, itemId, quantity).store.items, u, p) == (if u == item.owner && p == item.productId then quantity else Held(s.items, u, p))
  {
    var r := UpdateItem(s, user, itemId, quantity);
    var i := FindOwned(s.items, user, itemId).value;
    var items := s.items;
    var after := r.store.items;
    assert after == SetQuantity(items, itemId, quantity);
    forall j | 0 <= j < |items| && items[j].id == itemId ensures j == i {
    }
    forall u, p
      ensures Held(after, u, p) == if u == items[i].owner && p == items[i].productId then quantity else Held(items, u, p)
    {
      FindLineSameRows(items, after, u, p);
      var f := FindLine(items, u, p);
      if u == items[i].owner && p == items[i].productId {
        assert f.Some?;
        if f.value != i {
          if f.value < i { assert SameLine(items[f.value], items[i]); }
          else { assert SameLine(items[i], items[f.value]); }
        }
      }
    }
    assert Valid(r.store) by {
      forall j, k | 0 <= j < k < |after| ensures !SameLine(after[j], after[k]) {
        assert SameLine(after[j], after[k]) == SameLine(items[j], items[k]);
      }
    }
  }

  /** A row that is not in the caller's cart, whether it belongs to someone
      else or does not exist, is NotFound for a valid quantity and for
      removal alike, and nothing changes. */
  lemma ForeignItemNotFound(s: Store, user: UserId, itemId: CartItemId, quantity: int)
    requires quantity > 0
    requires forall j :: 0 <= j < |s.items| && s.items[j].id == itemId ==> s.items[j].owner != user
    ensures UpdateItem(s, user, itemId, quantity) == Step(s, Err(NotFound))
    ensures RemoveItem(s, user, itemId) == Step(s, Err(NotFound))
  {
  }

  /** removeItem keeps the invariant and deletes exactly one row: the one
      asked for, whose line is then gone from the user's cart. */
  lemma RemoveItemKeepsValid(s: Store, user: UserId, itemId: CartItemId)
    requires Valid(s) && RemoveItem(s, user, itemId).result.Ok?
    ensures Valid(RemoveItem(s, user, itemId).store)
    ensures |RemoveItem(s, user, itemId).store.items| == |s.items| - 1
    ensures var gone := s.items[FindOwned(s.items, user, itemId).value];
      Held(RemoveItem(s, user, itemId).store.items, user, gone.productId) == 0
  {
    var i := FindOwned(s.items, user, itemId).value;
    var keep := (x: CartItem) => x.id != itemId;
    assert RemoveItem(s, user, itemId).store.items == Filter(s.items, keep);
    FilterKeepsOrder(s.items, keep, (a: CartItem, b: CartItem) => a.id < b.id);
    FilterKeepsOrder(s.items, keep, (a: CartItem, b: CartItem) => !SameLine(a, b));
    RemoveOneRow(s.items, i, itemId);
    RemovedLineGone(s, i, itemId);
  }

  /** Rows in ascending id order; deleting by the id of row `i` deletes just that row. */
  lemma {:induction false} RemoveOneRow(items: seq<CartItem>, i: nat, itemId: CartItemId)
    requires i < |items| && items[i].id == itemId
    requires forall j, k :: 0 <= j < k < |items| ==> items[j].id < items[k].id
    ensures |Filter(items, (x: CartItem) => x.id != itemId)| == |items| - 1
  {
    var keep := (x: CartItem) => x.id != itemId;
    if i == 0 {
      FilterAllKept(items[1..], keep);
    } else {
      assert keep(items[0]);
      RemoveOneRow(items[1..], i - 1, itemId);
    }
  }

  /** After deleting the row at index `i`, its owner holds no line for its product. */
  lemma RemovedLineGone(s: Store, i: nat, itemId: CartItemId)
    requires Valid(s) && i < |s.items| && s.items[i].id == itemId
    ensures Held(Filter(s.items, (x: CartItem) => x.id != itemId), s.items[i].owner, s.items[i].productId) == 0
  {
    var after := Filter(s.items, (x: CartItem) => x.id != itemId);
    var gone := s.items[i];
    forall k | 0 <= k < |after| ensures !SameLine(after[k], gone) {
      var x := after[k];
      assert x in s.items && x.id != itemId;
      var j :| 0 <= j < |s.items| && s.items[j] == x;
      assert j != i;
    }
  }

  /** clearCart keeps the invariant, empties the user's cart and leaves every
      other user's cart exactly as it was, rows and order included. */
  lemma ClearCartKeepsValid(s: Store, user: UserId)
    requires Valid(s)
    ensures Valid(ClearCart(s, user))
    ensures LinesOf(ClearCart(s, user).items, user) == []
    ensures forall u :: u != user ==> LinesOf(ClearCart(s, user).items, u) == LinesOf(s.items, u)
  {
    if user in s.carts {
      var keep := (x: CartItem) => x.owner != user;
      FilterKeepsOrder(s.items, keep, (a: CartItem, b: CartItem) => a.id < b.id);
      FilterKeepsOrder(s.items, keep, (a: CartItem, b: CartItem) => !SameLine(a, b));
      NoLinesLeft(Filter(s.items, keep), user);
      forall u | u != user ensures LinesOf(Filter(s.items, keep), u) == LinesOf(s.items, u) {
        FilterOtherOwner(s.items, user, u);
      }
    } else {
      assert forall j :: 0 <= j < |s.items| ==> s.items[j].owner != user;
      NoLinesLeft(s.items, user);
    }
  }

  lemma {:induction false} NoLinesLeft(items: seq<CartItem>, user: UserId)
    requires forall j :: 0 <= j < |items| ==> items[j].owner != user
    ensures LinesOf(items, user) == []
  {
    if items != [] {
      NoLinesLeft(items[1..], user);
    }
  }

  lemma {:induction false} FilterOtherOwner(items: seq<CartItem>, user: UserId, u: UserId)
    requires u != user
    ensures LinesOf(Filter(items, (x: CartItem) => x.owner != user), u) == LinesOf(items, u)
  {
    if items != [] {
      FilterOtherOwner(items[1..], user, u);
      var keep := (x: CartItem) => x.owner != user;
      var head := if keep(items[0]) then [items[0]] else [];
      assert Filter(items, keep) == head + Filter(items[1..], keep);
      FilterAppend(head, Filter(items[1..], keep), (x: CartItem) => x.owner == u);
    }
  }

  /** In a valid store, each user's cart has at most one line per product. */
  lemma CartHasOneLinePerProduct(s: Store, user: UserId)
    requires Valid(s)
    ensures OneLinePerProduct(LinesOf(s.items, user))
  {
    FilterKeepsOrder(s.items, (x: CartItem) => x.owner == user, (a: CartItem, b: CartItem) => !SameLine(a, b));
  }
}

=== FILE: checkout.dfy ===
/** The checkout service: validating a cart before payment, and the line
    items handed to the payment provider. */
module Checkout {

  import opened Domain
  import opened Seqs
  import Inventory
  import CartPricing
  import Carts
  import Orders

  /** A cart line passes checkout when its product exists and has the stock
      for the line's quantity. */
  predicate Checkable(catalog: Catalog, item: CartItem) {
    HasProduct(catalog, item) && Inventory.CheckStockAvailability(catalog[item.productId], item.quantity)
  }

  /** The error a failing line raises: the missing product is reported
      before any stock problem. */
  function LineError(catalog: Catalog, item: CartItem): Error {
    if !HasProduct(catalog, item) then ProductNotFoundInCart else InsufficientStockFor(item.productId)
  }

  /** validateCartForCheckout: a user without a cart, or with an empty one,
      is refused as an empty cart; otherwise the lines are checked in order
      and the first failing one decides the error; a cart whose lines all
      pass is handed back as it is. */
  function ValidateCartForCheckout(s: Store, user: UserId): (r: Result<seq<CartItem>>)
    ensures user !in s.carts || Carts.LinesOf(s.items, user) == [] ==> r == Err(EmptyCart)
    ensures var lines := Carts.LinesOf(s.items, user);
      r.Ok? <==> user in s.carts && lines != [] && forall i :: 0 <= i < |lines| ==> Checkable(s.catalog, lines[i])
    ensures r.Ok? ==> r.value == Carts.LinesOf(s.items, user)
    ensures var lines := Carts.LinesOf(s.items, user);
      user in s.carts && lines != [] && r.Err? ==>
        exists i :: 0 <= i < |lines| && !Checkable(s.catalog, lines[i])
          && (forall j :: 0 <= j < i ==> Checkable(s.catalog, lines[j]))
          && r.error == LineError(s.catalog, lines[i])
  {
    if user !in s.carts then Err(EmptyCart)
    else
      var lines := Carts.LinesOf(s.items, user);
      if lines == [] then Err(EmptyCart)
      else
        match FirstIndex(lines, (x: CartItem) => !Checkable(s.catalog, x))
        case Some(i) => Err(LineError(s.catalog, lines[i]))
        case None => Ok(lines)
  }

  /** What a payment line charges for: a product of the cart, or the tax. */
  datatype Charge = ProductCharge(productId: ProductId) | TaxCharge

  /** One line item of the payment session: a unit amount in cents and a
      quantity. */
  datatype PaymentLine = PaymentLine(charge: Charge, unitAmount: Cents, quantity: int)

  /** One payment line per cart line whose product exists, at the product's
      current price and the line's quantity; lines without a product are
      skipped. */
  function ProductCharges(catalog: Catalog, items: seq<CartItem>): seq<PaymentLine> {
    if items == [] then []
    else
      (if HasProduct(catalog, items[0])
       then [PaymentLine(ProductCharge(items[0].productId), catalog[items[0].productId].price, items[0].quantity)]
       else [])
      + ProductCharges(catalog, items[1..])
  }

  /** buildStripeLineItems: the product lines, then a tax line of quantity
      one when the cart's tax is positive. */
  function BuildStripeLineItems(catalog: Catalog, items: seq<CartItem>, cfg: Config): (r: seq<PaymentLine>)
    ensures var tax := CartPricing.CartTotals(catalog, items, cfg).tax;
      |r| == |ProductCharges(catalog, items)| + (if tax > 0 then 1 else 0)
    ensures var tax := CartPricing.CartTotals(catalog, items, cfg).tax;
      tax > 0 ==> r[|r| - 1] == PaymentLine(TaxCharge, tax, 1)
    ensures r[..|ProductCharges(catalog, items)|] == ProductCharges(catalog, items)
    ensures CartPricing.CartTotals(catalog, items, cfg).tax <= 0 ==> r == ProductCharges(catalog, items)
    ensures forall i :: 0 <= i < |r| && r[i].charge == TaxCharge ==> i == |r| - 1
  {
    var products := ProductCharges(catalog, items);
    var tax := CartPricing.CartTotals(catalog, items, cfg).tax;
    ProductChargesNoTax(catalog, items);
    products + (if tax > 0 then [PaymentLine(TaxCharge, tax, 1)] else [])
  }

  lemma {:induction false} ProductChargesNoTax(catalog: Catalog, items: seq<CartItem>)
    ensures forall i :: 0 <= i < |ProductCharges(catalog, items)| ==> ProductCharges(catalog, items)[i].charge.ProductCharge?
  {
    if items != [] {
      ProductChargesNoTax(catalog, items[1..]);
    }
  }

  /** The product payment lines correspond one to one, in order, to the cart
      lines whose product exists: same product, same quantity, the
      product's price as unit amount. */
  lemma {:induction false} ProductChargesMatchLines(catalog: Catalog, items: seq<CartItem>)
    ensures var paid := WithProduct(catalog, items);
      var charges := ProductCharges(catalog, items);
      && |charges| == |paid|
      && forall i :: 0 <= i < |paid| ==>
           charges[i] == PaymentLine(ProductCharge(paid[i].productId), catalog[paid[i].productId].price, paid[i].quantity)
  {
    if items != [] {
      ProductChargesMatchLines(catalog, items[1..]);
      var paid := WithProduct(catalog, items);
      assert paid == (if HasProduct(catalog, items[0]) then [items[0]] else []) + WithProduct(catalog, items[1..]);
    }
  }

  /** The amount a run of payment lines charges. */
  function Charged(lines: seq<PaymentLine>): Cents {
    if lines == [] then 0 else lines[0].unitAmount * lines[0].quantity + Charged(lines[1..])
  }

  lemma {:induction false} ChargedAppend(a: seq<PaymentLine>, b: seq<PaymentLine>)
    ensures Charged(a + b) == Charged(a) + Charged(b)
  {
    if a == [] {
      assert a + b == b;
    } else {
      assert (a + b)[1..] == a[1..] + b;
      ChargedAppend(a[1..], b);
    }
  }

  /** The product lines charge exactly the cart's subtotal: a line without
      a product is neither charged nor counted in the subtotal. */
  lemma {:induction false} ProductChargesMatchSubtotal(catalog: Catalog, items: seq<CartItem>)
    ensures Charged(ProductCharges(catalog, items)) == CartPricing.Subtotal(catalog, items)
  {
    if items != [] {
      ProductChargesMatchSubtotal(catalog, items[1..]);
      var head := if HasProduct(catalog, items[0])
        then [PaymentLine(ProductCharge(items[0].productId), catalog[items[0].productId].price, items[0].quantity)]
        else [];
      ChargedAppend(head, ProductCharges(catalog, items[1..]));
      if HasProduct(catalog, items[0]) {
        assert head[1..] == [];
      }
    }
  }

  /** The payment session charges the cart's subtotal plus its tax when that
      is positive; with non-negative prices, quantities and rate this is the
      cart's total. */
  lemma StripeChargesMatchTotal(catalog: Catalog, items: seq<CartItem>, cfg: Config)
    ensures var totals := CartPricing.CartTotals(catalog, items, cfg);
      Charged(BuildStripeLineItems(catalog, items, cfg)) == totals.subtotal + (if totals.tax > 0 then totals.tax else 0)
    ensures CartPricing.NonNegativePrices(catalog) && CartPricing.NonNegativeQuantities(items) && cfg.taxRateBasisPoints >= 0
      ==> Charged(BuildStripeLineItems(catalog, items, cfg)) == CartPricing.CartTotals(catalog, items, cfg).total
  {
    var totals := CartPricing.CartTotals(catalog, items, cfg);
    var products := ProductCharges(catalog, items);
    var taxLines := if totals.tax > 0 then [PaymentLine(TaxCharge, totals.tax, 1)] else [];
    assert BuildStripeLineItems(catalog, items, cfg) == products + taxLines;
    ChargedAppend(products, taxLines);
    ProductChargesMatchSubtotal(catalog, items);
    if totals.tax > 0 {
      assert taxLines[1..] == [];
    }
  }

  /** An order placed from a cart that passed validation leaves no product
      with negative stock, provided none had negative stock before: each
      product has at most one line, and that line's quantity fits its
      stock. */
  lemma ValidatedOrderKeepsStock(s: Store, user: UserId, paymentIntent: string, today: Day, cfg: Config)
    requires Carts.Valid(s)
    requires forall p :: p in s.catalog ==> s.catalog[p].stock >= 0
    requires ValidateCartForCheckout(s, user).Ok?
    ensures var cart := ValidateCartForCheckout(s, user).value;
      var after := Orders.CreateOrderFromCart(s, user, cart, paymentIntent, today, cfg).store.catalog;
      forall p :: p in after ==> 0 <= after[p].stock <= s.catalog[p].stock
  {
    var cart := ValidateCartForCheckout(s, user).value;
    var after := Orders.CreateOrderFromCart(s, user, cart, paymentIntent, today, cfg).store.catalog;
    Carts.CartHasOneLinePerProduct(s, user);
    forall p | p in after ensures 0 <= after[p].stock <= s.catalog[p].stock {
      QuantityOfSingleLine(cart, p);
      forall i | 0 <= i < |cart| ensures cart[i].quantity >= 1 {
        assert cart[i] in s.items;
      }
    }
  }

  /** The paid-checkout handler, once the payment provider reports the
      session as paid: it loads the user's cart as it is at that moment,
      places an order from its lines and clears the cart. A user without a
      cart row is refused. The cart is not validated again: validation ran
      in an earlier request, before the payment, and the cart or the stock
      may have changed since. */
  function PaidCheckout(s: Store, user: UserId, paymentIntent: string, today: Day, cfg: Config): (r: Step<Order>)
    ensures user !in s.carts ==> r == Step(s, Err(NotFound))
    ensures r.result.Ok? <==> user in s.carts
    ensures r.result.Ok? ==>
      var cart := Carts.LinesOf(s.items, user);
      && r.result.value.owner == user && r.result.value.status == Placed
      && r.result.value.paymentIntent == paymentIntent && r.result.value.createdOn == today
      && r.store.orders == s.orders + [r.result.value]
      && (forall p :: p in s.catalog ==> p in r.store.catalog && r.store.catalog[p].stock == s.catalog[p].stock - QuantityOf(cart, p))
    ensures r.result.Ok? ==>
      var totals := CartPricing.CartTotals(s.catalog, Carts.LinesOf(s.items, user), cfg);
      r.result.value.subtotal == totals.subtotal && r.result.value.tax == totals.tax && r.result.value.total == totals.total
    ensures r.result.Ok? ==>
      var paid := WithProduct(s.catalog, Carts.LinesOf(s.items, user));
      && |r.result.value.lines| == |paid|
      && forall i :: 0 <= i < |paid| ==>
           r.result.value.lines[i] == OrderLine(paid[i].productId, paid[i].quantity, s.catalog[paid[i].productId].price)
  {
    match Carts.GetCartWithItems(s, user, cfg)
    case None => Step(s, Err(NotFound))
    case Some(view) =>
      var placed := Orders.CreateOrderFromCart(s, user, view.lines, paymentIntent, today, cfg);
      Step(Carts.ClearCart(placed.store, user), Ok(placed.order))
  }

  /** The paid checkout keeps the cart invariant, empties the user's cart,
      leaves every other cart alone, records the order, and writes one order
      line per cart line whose product still exists, whatever the cart holds
      by then. */
  lemma PaidCheckoutClearsCart(s: Store, user: UserId, paymentIntent: string, today: Day, cfg: Config)
    requires Carts.Valid(s) && user in s.carts
    ensures var r := PaidCheckout(s, user, paymentIntent, today, cfg);
      && Carts.Valid(r.store)
      && Carts.LinesOf(r.store.items, user) == []
      && (forall u :: u != user ==> Carts.LinesOf(r.store.items, u) == Carts.LinesOf(s.items, u))
      && |r.result.value.lines| == |WithProduct(s.catalog, Carts.LinesOf(s.items, user))|
  {
    var after := PaidCheckout(s, user, paymentIntent, today, cfg).store;
    assert && Carts.Valid(after)
           && Carts.LinesOf(after.items, user) == []
           && (forall u :: u != user ==> Carts.LinesOf(after.items, u) == Carts.LinesOf(s.items, u)) by {
      var placed := Orders.CreateOrderFromCart(s, user, Carts.LinesOf(s.items, user), paymentIntent, today, cfg);
      PaidCheckoutStore(s, user, paymentIntent, today, cfg);
      Carts.ClearCartKeepsValid(placed.store, user);
    }
  }

  /** With a cart, the paid checkout's store is the order's store with the
      user's cart cleared. */
  lemma PaidCheckoutStore(s: Store, user: UserId, paymentIntent: string, today: Day, cfg: Config)
    requires user in s.carts
    ensures var placed := Orders.CreateOrderFromCart(s, user, Carts.LinesOf(s.items, user), paymentIntent, today, cfg);
      && PaidCheckout(s, user, paymentIntent, today, cfg).store == Carts.ClearCart(placed.store, user)
      && placed.store.items == s.items && placed.store.carts == s.carts
  {
  }

  /** When the cart still passes validation at the moment of the paid
      checkout, every cart line becomes an order line. */
  lemma ValidatedCheckoutOrdersEveryLine(s: Store, user: UserId, paymentIntent: string, today: Day, cfg: Config)
    requires Carts.Valid(s) && ValidateCartForCheckout(s, user).Ok?
    ensures |PaidCheckout(s, user, paymentIntent, today, cfg).result.value.lines| == |ValidateCartForCheckout(s, user).value|
  {
    var cart := ValidateCartForCheckout(s, user).value;
    PaidCheckoutClearsCart(s, user, paymentIntent, today, cfg);
    assert WithProduct(s.catalog, cart) == cart by {
      FilterAllKept(cart, (x: CartItem) => HasProduct(s.catalog, x));
    }
  }

  /** A paid checkout reached again with the cart already cleared (the
      success page reloaded) places a second order, with no lines and a
      total of zero. */
  lemma EmptyCartPlacesEmptyOrder(s: Store, user: UserId, paymentIntent: string, today: Day, cfg: Config)
    requires Carts.Valid(s) && user in s.carts && Carts.LinesOf(s.items, user) == []
    ensures var r := PaidCheckout(s, user, paymentIntent, today, cfg);
      && r.result.Ok?
      && r.result.value.lines == []
      && r.result.value.total == 0
      && r.store.orders == s.orders + [r.result.value]
  {
    PaidCheckoutClearsCart(s, user, paymentIntent, today, cfg);
  }

  /** Two carts validated against the same stock of 5: one holds 2 units,
      the other 4. Both pass validation, and both payments go through; the
      paid checkouts then take the stock to 5 - 4 - 2 = -1, since nothing
      checks the stock between validation and the order. */
  lemma ConcurrentCheckoutsOversell()
    ensures var s := Store(map[1 := Product(1000, 5)], {7, 8}, [CartItem(0, 7, 1, 2), CartItem(1, 8, 1, 4)], 2, [], 0);
      var first := PaidCheckout(s, 8, "pi_8", 0, DefaultConfig);
      var second := PaidCheckout(first.store, 7, "pi_7", 0, DefaultConfig);
      && ValidateCartForCheckout(s, 7).Ok?
      && ValidateCartForCheckout(s, 8).Ok?
      && first.result.Ok? && second.result.Ok?
      && second.store.catalog[1].stock == -1
  {
    var s := Store(map[1 := Product(1000, 5)], {7, 8}, [CartItem(0, 7, 1, 2), CartItem(1, 8, 1, 4)], 2, [], 0);
    assert Carts.LinesOf(s.items, 7) == [CartItem(0, 7, 1, 2)];
    assert Carts.LinesOf(s.items, 8) == [CartItem(1, 8, 1, 4)];
    var first := PaidCheckout(s, 8, "pi_8", 0, DefaultConfig);
    assert first.store.catalog[1].stock == 1;
    assert first.store.items == [CartItem(0, 7, 1, 2)] by {
      assert first.store.items == Filter(s.items, (x: CartItem) => x.owner != 8);
    }
    assert Carts.LinesOf(first.store.items, 7) == [CartItem(0, 7, 1, 2)];
  }
}

=== FILE: domain.dfy ===
/** The entities of the storefront's cart, stock and order core.
    Money is held in integer cents; the tax rate is a fixed-point number of
    basis points (hundredths of a percent). */
module Domain {

  import Seqs

  type UserId = nat
  type ProductId = nat
  type CartItemId = nat
  type OrderId = nat

  /** A calendar day (days since an epoch): the date part of a timestamp. */
  type Day = int

  /** An amount of money in cents. */
  type Cents = int

  /** A row of the products table. The stock is an unbounded integer: the
      service code does nothing to keep it non-negative, and the column's
      type is not modelled. */
  datatype Product = Product(price: Cents, stock: int)

  /** The products table, keyed by product id. Products can disappear from
      it (catalog management) while cart lines still refer to them. */
  type Catalog = map<ProductId, Product>

  /** A row of the cart_items table. A user owns at most one cart, so the
      owning user stands for the cart. */
  datatype CartItem = CartItem(id: CartItemId, owner: UserId, productId: ProductId, quantity: int)

  datatype OrderStatus = Placed | Pending | Completed | Cancelled

  /** A row of the order_items table; `price` is the unit price copied from
      the product when the order was placed. */
  datatype OrderLine = OrderLine(productId: ProductId, quantity: int, price: Cents)

  datatype Order = Order(
    id: OrderId,
    owner: UserId,
    paymentIntent: string,
    status: OrderStatus,
    subtotal: Cents,
    tax: Cents,
    total: Cents,
    createdOn: Day,
    lines: seq<OrderLine>)

  /** The persistent state the services read and write: the products table,
      the users that have a cart row, the cart_items rows in id order, the
      orders in id order, and the next auto-increment ids. */
  datatype Store = Store(
    catalog: Catalog,
    carts: set<UserId>,
    items: seq<CartItem>,
    nextItemId: CartItemId,
    orders: seq<Order>,
    nextOrderId: OrderId)

  /** The `ecommerce` configuration: the tax rate in basis points and the
      low-stock threshold. */
  datatype Config = Config(taxRateBasisPoints: int, lowStockThreshold: int)

  /** The configured defaults: 8.5 percent tax and a threshold of 10 units. */
  const DefaultConfig := Config(850, 10)

  /** The exceptions the services throw, one constructor per message. */
  datatype Error =
    | NotFound               // ModelNotFoundException
    | InvalidQuantity        // "Quantity must be greater than 0."
    | InsufficientStock      // "Insufficient stock available."
    | EmptyCart              // "Your cart is empty."
    | ProductNotFoundInCart  // "Product not found in cart item."
    | InsufficientStockFor(productId: ProductId)  // "Insufficient stock for <name>."

  datatype Result<+T> = Ok(value: T) | Err(error: Error)

  /** The outcome of a transaction: the store afterwards and what the call
      returned. A failed transaction leaves the store it was given. */
  datatype Step<+T> = Step(store: Store, result: Result<T>)

  /** The signal the stock ledger raises for the notification job. */
  datatype LowStock = LowStock(productId: ProductId, stock: int)

  predicate HasProduct(catalog: Catalog, item: CartItem) {
    item.productId in catalog
  }

  /** The lines of `items` whose product still exists, in order: the lines
      that the services price, charge for and turn into order lines. */
  function WithProduct(catalog: Catalog, items: seq<CartItem>): seq<CartItem> {
    Seqs.Filter(items, (x: CartItem) => HasProduct(catalog, x))
  }

  /** The first line of `items` is kept exactly when its product exists. */
  lemma WithProductCons(catalog: Catalog, items: seq<CartItem>)
    requires items != []
    ensures WithProduct(catalog, items)
      == (if HasProduct(catalog, items[0]) then [items[0]] else []) + WithProduct(catalog, items[1..])
  {
  }

  /** Units of `pid` held by the lines in `items`. */
  function QuantityOf(items: seq<CartItem>, pid: ProductId): int {
    if items == [] then 0
    else (if items[0].productId == pid then items[0].quantity else 0) + QuantityOf(items[1..], pid)
  }

  /** What a run of order lines is worth: quantity times snapshot price,
      summed (in the order the lines were written). */
  function Revenue(lines: seq<OrderLine>): Cents {
    if lines == [] then 0
    else Revenue(lines[..|lines| - 1]) + lines[|lines| - 1].quantity * lines[|lines| - 1].price
  }

  /** Units in a run of order lines. */
  function UnitsSold(lines: seq<OrderLine>): int {
    if lines == [] then 0 else UnitsSold(lines[..|lines| - 1]) + lines[|lines| - 1].quantity
  }

  lemma {:induction false} RevenueAppend(a: seq<OrderLine>, b: seq<OrderLine>)
    ensures Revenue(a + b) == Revenue(a) + Revenue(b)
  {
    if b != [] {
      assert (a + b)[..|a + b| - 1] == a + b[..|b| - 1];
      RevenueAppend(a, b[..|b| - 1]);
    } else {
      assert a + b == a;
    }
  }

  lemma {:induction false} UnitsSoldAppend(a: seq<OrderLine>, b: seq<OrderLine>)
    ensures UnitsSold(a + b) == UnitsSold(a) + UnitsSold(b)
  {
    if b != [] {
      assert (a + b)[..|a + b| - 1] == a + b[..|b| - 1];
      UnitsSoldAppend(a, b[..|b| - 1]);
    } else {
      assert a + b == a;
    }
  }

  /** No two lines in `items` are for the same product. */
  predicate OneLinePerProduct(items: seq<CartItem>) {
    forall i, j :: 0 <= i < j < |items| ==> items[i].productId != items[j].productId
  }

  /** When each product has at most one line, the units held of a product
      are those of its line, or none when it has no line. */
  lemma {:induction false} QuantityOfSingleLine(items: seq<CartItem>, pid: ProductId)
    requires OneLinePerProduct(items)
    ensures forall i :: 0 <= i < |items| && items[i].productId == pid ==> QuantityOf(items, pid) == items[i].quantity
    ensures (forall i :: 0 <= i < |items| ==> items[i].productId != pid) ==> QuantityOf(items, pid) == 0
  {
    if items != [] {
      assert OneLinePerProduct(items[1..]) by {
        forall i, j | 0 <= i < j < |items[1..]|
          ensures items[1..][i].productId != items[1..][j].productId
        {
          assert items[1..][i] == items[i + 1] && items[1..][j] == items[j + 1];
        }
      }
      QuantityOfSingleLine(items[1..], pid);
      if items[0].productId == pid {
        assert forall i :: 0 < i < |items| ==> items[i].productId != pid;
        assert forall i :: 0 <= i < |items[1..]| ==> items[1..][i].productId != pid by {
          forall i | 0 <= i < |items[1..]| ensures items[1..][i].productId != pid {
            assert items[1..][i] == items[i + 1];
          }
        }
      } else {
        forall i | 0 < i < |items| && items[i].productId == pid
          ensures QuantityOf(items, pid) == items[i].quantity
        {
          assert items[1..][i - 1] == items[i];
        }
        if forall i :: 0 <= i < |items| ==> items[i].productId != pid {
          assert forall i :: 0 <= i < |items[1..]| ==> items[1..][i].productId != pid by {
            forall i | 0 <= i < |items[1..]| ensures items[1..][i].productId != pid {
              assert items[1..][i] == items[i + 1];
            }
          }
        }
      }
    }
  }
}

=== FILE: inventory.dfy ===
/** The product service: the stock check, the stock ledger's decrement with
    its low-stock signal, and the related-products query. */
module Inventory {

  import opened Domain
  import opened Seqs

  /** Whether `product` can supply `quantity` units: exactly when the
      quantity does not exceed its stock. */
  predicate CheckStockAvailability(product: Product, quantity: int) {
    quantity <= product.stock
  }

  /** The catalog after a decrement, and the low-stock signal it raised. */
  datatype StockChange = StockChange(catalog: Catalog, signal: Option<LowStock>)

  /** Subtracts `quantity` from the stock of product `pid` (there is no guard
      against going below zero) and raises a low-stock signal carrying the
      product and its new stock exactly when the new stock is at or below
      `threshold`. */
  function DecreaseStock(catalog: Catalog, pid: ProductId, quantity: int, threshold: int): (r: StockChange)
    requires pid in catalog
    ensures r.catalog.Keys == catalog.Keys
    ensures r.catalog[pid].stock == catalog[pid].stock - quantity
    ensures r.catalog[pid].price == catalog[pid].price
    ensures forall p :: p in catalog && p != pid ==> r.catalog[p] == catalog[p]
    ensures r.signal.Some? <==> catalog[pid].stock - quantity <= threshold
    ensures r.signal.Some? ==> r.signal.value == LowStock(pid, catalog[pid].stock - quantity)
    ensures 0 <= quantity <= catalog[pid].stock ==> 0 <= r.catalog[pid].stock <= catalog[pid].stock
  {
    var product := catalog[pid];
    var after := product.(stock := product.stock - quantity);
    var updated := catalog[pid := after];
    StockChange(updated, if after.stock <= threshold then Some(LowStock(pid, after.stock)) else None)
  }

  /** The notification cases under the default threshold of 10: 15 - 6
      signals stock 9; 15 - 3 leaves 12 and raises nothing; 15 - 5 lands
      exactly on the threshold and signals stock 10, and a further unit
      signals stock 9. */
  lemma LowStockExamples(catalog: Catalog, pid: ProductId)
    requires pid in catalog && catalog[pid].stock == 15
    ensures DecreaseStock(catalog, pid, 6, DefaultConfig.lowStockThreshold).signal == Some(LowStock(pid, 9))
    ensures DecreaseStock(catalog, pid, 6, DefaultConfig.lowStockThreshold).catalog[pid].stock == 9
    ensures DecreaseStock(catalog, pid, 3, DefaultConfig.lowStockThreshold).signal == None
    ensures DecreaseStock(catalog, pid, 5, DefaultConfig.lowStockThreshold).signal == Some(LowStock(pid, 10))
    ensures DecreaseStock(DecreaseStock(catalog, pid, 5, DefaultConfig.lowStockThreshold).catalog, pid, 1, DefaultConfig.lowStockThreshold).signal
      == Some(LowStock(pid, 9))
  {
  }

  /** `ids` lists every product of `catalog` once, in the order the database
      returned them (random, for the related-products query). */
  predicate IsOrderingOf(ids: seq<ProductId>, catalog: Catalog) {
    && Distinct(ids)
    && (forall i :: 0 <= i < |ids| ==> ids[i] in catalog)
    && (forall p :: p in catalog ==> p in ids)
  }

  /** The products other than `pid`, taken in the random order `shuffled`, at
      most `limit` of them. A negative limit is ignored by the query builder,
      so it returns all the others. */
  function RelatedProducts(catalog: Catalog, pid: ProductId, limit: int, shuffled: seq<ProductId>): (r: seq<ProductId>)
    requires IsOrderingOf(shuffled, catalog)
    ensures pid !in r
    ensures Distinct(r)
    ensures forall i :: 0 <= i < |r| ==> r[i] in catalog
    ensures var others := |catalog.Keys - {pid}|;
      |r| == if 0 <= limit < others then limit else others
  {
    var others := Filter(shuffled, (q: ProductId) => q != pid);
    OtherProducts(catalog, pid, shuffled);
    if 0 <= limit < |others| then
      DistinctPrefix(others, limit);
      others[..limit]
    else others
  }

  /** The catalog's products other than `pid`, in the order `shuffled` lists
      them, each once. */
  lemma OtherProducts(catalog: Catalog, pid: ProductId, shuffled: seq<ProductId>)
    requires IsOrderingOf(shuffled, catalog)
    ensures var others := Filter(shuffled, (q: ProductId) => q != pid);
      && pid !in others
      && Distinct(others)
      && (forall i :: 0 <= i < |others| ==> others[i] in catalog)
      && |others| == |catalog.Keys - {pid}|
  {
    var others := Filter(shuffled, (q: ProductId) => q != pid);
    FilterKeepsOrder(shuffled, (q: ProductId) => q != pid, (x: ProductId, y: ProductId) => x != y);
    assert Elements(others) == catalog.Keys - {pid} by {
      forall q | q in catalog.Keys - {pid} ensures q in Elements(others) {
        var i :| 0 <= i < |shuffled| && shuffled[i] == q;
        assert q in others;
      }
    }
    DistinctElements(others);
  }

  lemma DistinctPrefix(s: seq<ProductId>, n: nat)
    requires Distinct(s) && n <= |s|
    ensures Distinct(s[..n])
  {
    assert forall i, j :: 0 <= i < j < n ==> s[..n][i] == s[i] && s[..n][j] == s[j];
  }

  /** With the default limit of 4 and five other products, four related
      products come back. */
  lemma RelatedProductsDefaultLimit(catalog: Catalog, pid: ProductId, shuffled: seq<ProductId>)
    requires IsOrderingOf(shuffled, catalog)
    requires pid in catalog && |catalog| == 6
    ensures |RelatedProducts(catalog, pid, 4, shuffled)| == 4
  {
    assert |catalog.Keys - {pid}| == 5;
  }
}

=== FILE: money.dfy ===
/** Fixed-point money arithmetic: PHP's round() on exact integers. */
module Money {

  /** Basis points in a whole: a rate of `b` basis points is `b / 10000`. */
  const BasisPointsScale := 10000

  /** `n / d` rounded to the nearest integer, halves away from zero, as PHP's
      round() does. For non-negative `n` a half rounds up, for negative `n` it
      rounds down; the two ensures clauses pin the result down uniquely
      (see RoundDivUnique). */
  function RoundDiv(n: int, d: int): (q: int)
    requires d > 0
    ensures n >= 0 ==> -d <= 2 * (n - q * d) < d
    ensures n < 0 ==> -d < 2 * (n - q * d) <= d
  {
    if n >= 0 then
      var a := 2 * n + d;
      var q := a / (2 * d);
      DivBounds(a, 2 * d);
      q
    else
      var a := -2 * n + d;
      var k := a / (2 * d);
      DivBounds(a, 2 * d);
      -k
  }

  lemma DivBounds(a: int, b: int)
    requires b > 0
    ensures (a / b) * b <= a < (a / b) * b + b
  {
  }

  /** At most one integer satisfies RoundDiv's contract, so the contract is a
      complete description of half-away-from-zero rounding. */
  lemma RoundDivUnique(n: int, d: int, q: int)
    requires d > 0
    requires n >= 0 ==> -d <= 2 * (n - q * d) < d
    requires n < 0 ==> -d < 2 * (n - q * d) <= d
    ensures q == RoundDiv(n, d)
  {
    var r := RoundDiv(n, d);
    // Both q and r lie within half a unit of n / d, so q * d and r * d are
    // less than d apart; distinct multiples of d are at least d apart.
    assert -d < q * d - r * d < d;
    var k := q - r;
    assert k * d == q * d - r * d;
    if k >= 1 {
      MultipleAtLeast(k, d);
    } else if k <= -1 {
      MultipleAtLeast(-k, d);
    }
  }

  lemma MultipleAtLeast(k: int, d: int)
    requires k >= 1 && d > 0
    ensures k * d >= d
  {
    assert k * d == (k - 1) * d + d;
    assert (k - 1) * d >= 0;
  }

  /** An amount that is already whole rounds to itself. */
  lemma RoundDivExact(n: int, d: int)
    requires d > 0
    ensures RoundDiv(n * d, d) == n
  {
    RoundDivUnique(n * d, d, n);
  }
}

=== FILE: orders.dfy ===
/** Order materialisation: turning a cart into a placed order, freezing the
    prices and decrementing stock, all in one transaction. */
module Orders {

  import opened Domain
  import opened Seqs
  import Inventory
  import CartPricing

  /** The order line a cart line turns into: its product and quantity, with
      the product's current price frozen into the order. */
  function Snapshot(catalog: Catalog, item: CartItem): OrderLine
    requires HasProduct(catalog, item)
  {
    OrderLine(item.productId, item.quantity, catalog[item.productId].price)
  }

  /** What the order loop produces: the catalog after the stock decrements,
      the order lines, and the low-stock signals in the order they were raised. */
  datatype Materialized = Materialized(catalog: Catalog, lines: seq<OrderLine>, signals: seq<LowStock>)

  /** The loop over the cart lines: a line whose product is gone is skipped;
      any other line yields an order line at the product's current price and
      decrements that product's stock, possibly raising a low-stock signal.
      MaterializeStock and MaterializeLines state what it computes. */
  function Materialize(catalog: Catalog, cart: seq<CartItem>, threshold: int): (r: Materialized)
    ensures r.catalog.Keys == catalog.Keys
    ensures |r.lines| == |WithProduct(catalog, cart)|
    ensures |r.signals| <= |r.lines|
    ensures forall i :: 0 <= i < |r.signals| ==> r.signals[i].productId in catalog && r.signals[i].stock <= threshold
  {
    if cart == [] then Materialized(catalog, [], [])
    else
      var item := cart[0];
      WithProductCons(catalog, cart);
      if !HasProduct(catalog, item) then Materialize(catalog, cart[1..], threshold)
      else
        var change := Inventory.DecreaseStock(catalog, item.productId, item.quantity, threshold);
        var rest := Materialize(change.catalog, cart[1..], threshold);
        WithProductSameKeys(change.catalog, catalog, cart[1..]);
        Materialized(
          rest.catalog,
          [Snapshot(catalog, item)] + rest.lines,
          change.signal.ToSeq() + rest.signals)
  }

  /** Each product ends short by the units the cart holds of it, at the same
      price; a product without lines keeps its stock. */
  lemma {:induction false} MaterializeStock(catalog: Catalog, cart: seq<CartItem>, threshold: int)
    ensures forall p :: p in catalog ==>
      Materialize(catalog, cart, threshold).catalog[p].price == catalog[p].price
      && Materialize(catalog, cart, threshold).catalog[p].stock == catalog[p].stock - QuantityOf(cart, p)
  {
    if cart != [] {
      var item := cart[0];
      if HasProduct(catalog, item) {
        var change := Inventory.DecreaseStock(catalog, item.productId, item.quantity, threshold);
        MaterializeStock(change.catalog, cart[1..], threshold);
        assert Materialize(catalog, cart, threshold).catalog == Materialize(change.catalog, cart[1..], threshold).catalog;
      } else {
        MaterializeStock(catalog, cart[1..], threshold);
        assert Materialize(catalog, cart, threshold) == Materialize(catalog, cart[1..], threshold);
      }
    }
  }

  /** The order lines are the snapshots of the cart lines whose product
      exists, in cart order. */
  lemma {:induction false} MaterializeLines(catalog: Catalog, cart: seq<CartItem>, threshold: int)
    ensures forall i :: 0 <= i < |Materialize(catalog, cart, threshold).lines| ==>
      Materialize(catalog, cart, threshold).lines[i] == Snapshot(catalog, WithProduct(catalog, cart)[i])
  {
    if cart != [] {
      var item := cart[0];
      WithProductCons(catalog, cart);
      if HasProduct(catalog, item) {
        var change := Inventory.DecreaseStock(catalog, item.productId, item.quantity, threshold);
        MaterializeLines(change.catalog, cart[1..], threshold);
        WithProductSameKeys(change.catalog, catalog, cart[1..]);
        var rest := Materialize(change.catalog, cart[1..], threshold);
        assert Materialize(catalog, cart, threshold).lines == [Snapshot(catalog, item)] + rest.lines;
        forall i | 0 <= i < |rest.lines|
          ensures rest.lines[i] == Snapshot(catalog, WithProduct(catalog, cart[1..])[i])
        {
          var x := WithProduct(catalog, cart[1..])[i];
          assert HasProduct(catalog, x);
          assert change.catalog[x.productId].price == catalog[x.productId].price;
        }
      } else {
        MaterializeLines(catalog, cart[1..], threshold);
        assert Materialize(catalog, cart, threshold) == Materialize(catalog, cart[1..], threshold);
      }
    }
  }

  /** Only the product ids of a catalog decide which lines have a product. */
  lemma {:induction false} WithProductSameKeys(c1: Catalog, c2: Catalog, items: seq<CartItem>)
    requires c1.Keys == c2.Keys
    ensures WithProduct(c1, items) == WithProduct(c2, items)
  {
    if items != [] {
      WithProductSameKeys(c1, c2, items[1..]);
      assert WithProduct(c1, items) ==
        (if HasProduct(c1, items[0]) then [items[0]] else []) + WithProduct(c1, items[1..]);
      assert WithProduct(c2, items) ==
        (if HasProduct(c2, items[0]) then [items[0]] else []) + WithProduct(c2, items[1..]);
    }
  }

  /** The result of createOrderFromCart: the committed store, the new order
      with its lines, and the low-stock signals raised on the way. */
  datatype Placement = Placement(store: Store, order: Order, signals: seq<LowStock>)

  /** createOrderFromCart: records a placed order for `user` with the cart's
      subtotal, tax and total, one line per cart line whose product exists
      (same product and quantity, current price), and decrements each
      product's stock by the units ordered. Stock is not checked again here,
      and the cart itself is left as it is: clearing it is a separate call. */
  function CreateOrderFromCart(s: Store, user: UserId, cart: seq<CartItem>, paymentIntent: string, today: Day, cfg: Config): (r: Placement)
    ensures r.order.status == Placed && r.order.owner == user
    ensures r.order.paymentIntent == paymentIntent && r.order.createdOn == today
    ensures r.order.id == s.nextOrderId && r.store.orders == s.orders + [r.order] && r.store.nextOrderId == s.nextOrderId + 1
    ensures var totals := CartPricing.CartTotals(s.catalog, cart, cfg);
      r.order.subtotal == totals.subtotal && r.order.tax == totals.tax && r.order.total == totals.total
    ensures var paid := WithProduct(s.catalog, cart);
      && |r.order.lines| == |paid|
      && forall i :: 0 <= i < |paid| ==>
           r.order.lines[i] == OrderLine(paid[i].productId, paid[i].quantity, s.catalog[paid[i].productId].price)
    ensures r.store.catalog.Keys == s.catalog.Keys
    ensures forall p :: p in s.catalog ==>
      r.store.catalog[p].price == s.catalog[p].price && r.store.catalog[p].stock == s.catalog[p].stock - QuantityOf(cart, p)
    ensures r.store.items == s.items && r.store.carts == s.carts && r.store.nextItemId == s.nextItemId
    ensures OneLinePerProduct(cart) ==>
      r.signals == ExpectedSignals(s.catalog, WithProduct(s.catalog, cart), cfg.lowStockThreshold)
  {
    var totals := CartPricing.CartTotals(s.catalog, cart, cfg);
    var m := Materialize(s.catalog, cart, cfg.lowStockThreshold);
    MaterializeStock(s.catalog, cart, cfg.lowStockThreshold);
    MaterializeLines(s.catalog, cart, cfg.lowStockThreshold);
    assert OneLinePerProduct(cart) ==>
      m.signals == ExpectedSignals(s.catalog, WithProduct(s.catalog, cart), cfg.lowStockThreshold) by {
      if OneLinePerProduct(cart) {
        MaterializeSignals(s.catalog, cart, cfg.lowStockThreshold);
      }
    }
    var order := Order(s.nextOrderId, user, paymentIntent, Placed, totals.subtotal, totals.tax, totals.total, today, m.lines);
    Placement(
      s.(catalog := m.catalog, orders := s.orders + [order], nextOrderId := s.nextOrderId + 1),
      order,
      m.signals)
  }

  // ---------------------------------------------------------------------
  // Properties of order materialisation

  /** Order lines at their snapshot prices are worth what the cart lines
      they came from add to the subtotal. */
  lemma {:induction false} SnapshotRevenue(catalog: Catalog, paid: seq<CartItem>, lines: seq<OrderLine>)
    requires |lines| == |paid|
    requires forall i :: 0 <= i < |paid| ==> HasProduct(catalog, paid[i]) && lines[i] == Snapshot(catalog, paid[i])
    ensures Revenue(lines) == CartPricing.Subtotal(catalog, paid)
  {
    if paid != [] {
      var n := |paid| - 1;
      SnapshotRevenue(catalog, paid[..n], lines[..n]);
      assert paid == paid[..n] + [paid[n]];
      CartPricing.SubtotalAppend(catalog, paid[..n], [paid[n]]);
      assert CartPricing.Subtotal(catalog, [paid[n]]) == CartPricing.LineAmount(catalog, paid[n]);
    }
  }

  /** The lines of a new order add up to its subtotal: the lines skipped for
      a missing product are exactly those the subtotal counts as zero. */
  lemma OrderLinesMatchSubtotal(s: Store, user: UserId, cart: seq<CartItem>, paymentIntent: string, today: Day, cfg: Config)
    ensures var order := CreateOrderFromCart(s, user, cart, paymentIntent, today, cfg).order;
      Revenue(order.lines) == order.subtotal && order.total == Revenue(order.lines) + order.tax
  {
    var order := CreateOrderFromCart(s, user, cart, paymentIntent, today, cfg).order;
    var paid := WithProduct(s.catalog, cart);
    CartPricing.SubtotalSkipsMissing(s.catalog, cart);
    SnapshotRevenue(s.catalog, paid, order.lines);
  }

  /** The low-stock signals expected from decrementing, one after another,
      the products of `lines` from the stock in `catalog`: one per line whose
      product ends at or below the threshold, carrying that new stock. */
  function ExpectedSignals(catalog: Catalog, lines: seq<CartItem>, threshold: int): seq<LowStock>
    requires forall i :: 0 <= i < |lines| ==> HasProduct(catalog, lines[i])
  {
    if lines == [] then []
    else
      assert HasProduct(catalog, lines[0]);
      var after := catalog[lines[0].productId].stock - lines[0].quantity;
      (if after <= threshold then [LowStock(lines[0].productId, after)] else [])
        + ExpectedSignals(catalog, lines[1..], threshold)
  }

  lemma {:induction false} ExpectedSignalsFrame(c1: Catalog, c2: Catalog, lines: seq<CartItem>, pid: ProductId, threshold: int)
    requires forall i :: 0 <= i < |lines| ==> HasProduct(c1, lines[i]) && HasProduct(c2, lines[i]) && lines[i].productId != pid
    requires forall p :: p in c1 && p != pid ==> p in c2 && c1[p] == c2[p]
    ensures ExpectedSignals(c1, lines, threshold) == ExpectedSignals(c2, lines, threshold)
  {
    if lines != [] {
      ExpectedSignalsFrame(c1, c2, lines[1..], pid, threshold);
    }
  }

  /** When the cart has one line per product (as every valid cart does), the
      order raises exactly the expected signals: one per ordered product
      whose stock drops to or below the threshold, with its new stock. */
  lemma {:induction false} MaterializeSignals(catalog: Catalog, cart: seq<CartItem>, threshold: int)
    requires OneLinePerProduct(cart)
    ensures var paid := WithProduct(catalog, cart);
      Materialize(catalog, cart, threshold).signals == ExpectedSignals(catalog, paid, threshold)
  {
    if cart != [] {
      var item := cart[0];
      var tail := cart[1..];
      TailOneLinePerProduct(cart);
      var paid := WithProduct(catalog, cart);
      var paidTail := WithProduct(catalog, tail);
      assert paid == (if HasProduct(catalog, item) then [item] else []) + paidTail;
      if HasProduct(catalog, item) {
        var change := Inventory.DecreaseStock(catalog, item.productId, item.quantity, threshold);
        MaterializeSignals(change.catalog, tail, threshold);
        MaterializeSignalsHead(catalog, cart, threshold);
      } else {
        assert Materialize(catalog, cart, threshold) == Materialize(catalog, tail, threshold);
        assert paid == paidTail;
        MaterializeSignals(catalog, tail, threshold);
      }
    }
  }

  /** The step of MaterializeSignals for a first line whose product exists,
      given the property for the rest of the cart against the decremented
      catalog. */
  lemma MaterializeSignalsHead(catalog: Catalog, cart: seq<CartItem>, threshold: int)
    requires cart != [] && OneLinePerProduct(cart) && HasProduct(catalog, cart[0])
    requires var change := Inventory.DecreaseStock(catalog, cart[0].productId, cart[0].quantity, threshold);
      Materialize(change.catalog, cart[1..], threshold).signals
        == ExpectedSignals(change.catalog, WithProduct(change.catalog, cart[1..]), threshold)
    ensures Materialize(catalog, cart, threshold).signals == ExpectedSignals(catalog, WithProduct(catalog, cart), threshold)
  {
    MaterializeUnfold(catalog, cart, threshold);
    RestSignalsFrame(catalog, cart, threshold);
    ExpectedSignalsUnfold(catalog, cart, threshold);
  }

  /** The expected signals of a cart whose first line has a product: that
      line's signal, if any, then those of the rest. */
  lemma ExpectedSignalsUnfold(catalog: Catalog, cart: seq<CartItem>, threshold: int)
    requires cart != [] && HasProduct(catalog, cart[0])
    ensures var change := Inventory.DecreaseStock(catalog, cart[0].productId, cart[0].quantity, threshold);
      ExpectedSignals(catalog, WithProduct(catalog, cart), threshold)
        == change.signal.ToSeq() + ExpectedSignals(catalog, WithProduct(catalog, cart[1..]), threshold)
  {
    var paidTail := WithProduct(catalog, cart[1..]);
    assert WithProduct(catalog, cart) == [cart[0]] + paidTail;
    ExpectedSignalsCons(catalog, cart[0], paidTail, threshold);
    SignalAsSeq(catalog, cart[0].productId, cart[0].quantity, threshold);
  }

  /** One turn of the order loop on a line whose product exists: its signal,
      if any, comes before those of the rest of the cart. */
  lemma MaterializeUnfold(catalog: Catalog, cart: seq<CartItem>, threshold: int)
    requires cart != [] && HasProduct(catalog, cart[0])
    ensures var change := Inventory.DecreaseStock(catalog, cart[0].productId, cart[0].quantity, threshold);
      Materialize(catalog, cart, threshold).signals
        == change.signal.ToSeq() + Materialize(change.catalog, cart[1..], threshold).signals
  {
  }

  /** The rest of the cart does not touch the first line's product, so its
      expected signals are the same before and after that product's decrement. */
  lemma RestSignalsFrame(catalog: Catalog, cart: seq<CartItem>, threshold: int)
    requires cart != [] && OneLinePerProduct(cart) && HasProduct(catalog, cart[0])
    ensures var change := Inventory.DecreaseStock(catalog, cart[0].productId, cart[0].quantity, threshold);
      ExpectedSignals(change.catalog, WithProduct(change.catalog, cart[1..]), threshold)
        == ExpectedSignals(catalog, WithProduct(catalog, cart[1..]), threshold)
  {
    var change := Inventory.DecreaseStock(catalog, cart[0].productId, cart[0].quantity, threshold);
    var paidTail := WithProduct(catalog, cart[1..]);
    WithProductSameKeys(change.catalog, catalog, cart[1..]);
    PaidTailAvoidsHead(catalog, cart);
    ExpectedSignalsFrame(change.catalog, catalog, paidTail, cart[0].productId, threshold);
  }

  lemma ExpectedSignalsCons(catalog: Catalog, item: CartItem, rest: seq<CartItem>, threshold: int)
    requires HasProduct(catalog, item)
    requires forall i :: 0 <= i < |rest| ==> HasProduct(catalog, rest[i])
    ensures var after := catalog[item.productId].stock - item.quantity;
      ExpectedSignals(catalog, [item] + rest, threshold)
        == (if after <= threshold then [LowStock(item.productId, after)] else []) + ExpectedSignals(catalog, rest, threshold)
  {
    var lines := [item] + rest;
    assert lines[0] == item && lines[1..] == rest;
  }

  lemma SignalAsSeq(catalog: Catalog, pid: ProductId, quantity: int, threshold: int)
    requires pid in catalog
    ensures var after := catalog[pid].stock - quantity;
      Inventory.DecreaseStock(catalog, pid, quantity, threshold).signal.ToSeq()
        == if after <= threshold then [LowStock(pid, after)] else []
  {
  }

  lemma TailOneLinePerProduct(cart: seq<CartItem>)
    requires cart != [] && OneLinePerProduct(cart)
    ensures OneLinePerProduct(cart[1..])
    ensures forall k :: 0 <= k < |cart[1..]| ==> cart[1..][k].productId != cart[0].productId
  {
    var tail := cart[1..];
    forall i, j | 0 <= i < j < |tail| ensures tail[i].productId != tail[j].productId {
      assert tail[i] == cart[i + 1] && tail[j] == cart[j + 1];
    }
    forall k | 0 <= k < |tail| ensures tail[k].productId != cart[0].productId {
      assert tail[k] == cart[k + 1];
    }
  }

  /** In a cart with one line per product, no later line with a product is
      for the first line's product. */
  lemma PaidTailAvoidsHead(catalog: Catalog, cart: seq<CartItem>)
    requires cart != [] && OneLinePerProduct(cart)
    ensures forall i :: 0 <= i < |WithProduct(catalog, cart[1..])| ==>
      WithProduct(catalog, cart[1..])[i].productId != cart[0].productId
  {
    var tail := cart[1..];
    var paidTail := WithProduct(catalog, tail);
    TailOneLinePerProduct(cart);
    forall i | 0 <= i < |paidTail| ensures paidTail[i].productId != cart[0].productId {
      assert paidTail[i] in tail;
    }
  }
}

=== FILE: pricing.dfy ===
/** Cart pricing: the subtotal, tax and total that the cart model derives,
    on every read, from its current lines and the products' current prices. */
module CartPricing {

  import opened Domain
  import Money
  import Seqs

  /** The three derived amounts of a cart. */
  datatype Totals = Totals(subtotal: Cents, tax: Cents, total: Cents)

  predicate NonNegativePrices(catalog: Catalog) {
    forall p :: p in catalog ==> catalog[p].price >= 0
  }

  predicate NonNegativeQuantities(items: seq<CartItem>) {
    forall i :: 0 <= i < |items| ==> items[i].quantity >= 0
  }

  /** What one cart line adds to the subtotal: its quantity times the
      product's current price, or nothing when the product no longer exists. */
  function LineAmount(catalog: Catalog, item: CartItem): Cents {
    if HasProduct(catalog, item) then item.quantity * catalog[item.productId].price else 0
  }

  /** The cart's subtotal: the sum of its line amounts. */
  function Subtotal(catalog: Catalog, items: seq<CartItem>): (r: Cents)
    ensures NonNegativePrices(catalog) && NonNegativeQuantities(items) ==> r >= 0
  {
    if items == [] then 0
    else
      assert NonNegativeQuantities(items) ==> items[0].quantity >= 0;
      LineAmount(catalog, items[0]) + Subtotal(catalog, items[1..])
  }

  /** The tax on `subtotal`: subtotal times the configured rate, rounded to
      the nearest cent with halves away from zero. */
  function Tax(cfg: Config, subtotal: Cents): (t: Cents)
    ensures var exact := subtotal * cfg.taxRateBasisPoints;
      exact >= 0 ==> -Money.BasisPointsScale <= 2 * (exact - t * Money.BasisPointsScale) < Money.BasisPointsScale
    ensures var exact := subtotal * cfg.taxRateBasisPoints;
      exact < 0 ==> -Money.BasisPointsScale < 2 * (exact - t * Money.BasisPointsScale) <= Money.BasisPointsScale
    ensures subtotal >= 0 && cfg.taxRateBasisPoints >= 0 ==> t >= 0
  {
    Money.RoundDiv(subtotal * cfg.taxRateBasisPoints, Money.BasisPointsScale)
  }

  /** Subtotal, tax and total of the lines `items` under `cfg`. Amounts are
      whole cents, so rounding the total to two decimals changes nothing. */
  function CartTotals(catalog: Catalog, items: seq<CartItem>, cfg: Config): (r: Totals)
    ensures r.subtotal == Subtotal(catalog, items)
    ensures r.total == r.subtotal + r.tax
    ensures r.tax == Tax(cfg, r.subtotal)
    ensures items == [] ==> r == Totals(0, 0, 0)
    ensures NonNegativePrices(catalog) && NonNegativeQuantities(items) && cfg.taxRateBasisPoints >= 0
      ==> 0 <= r.subtotal <= r.total && 0 <= r.tax
  {
    var subtotal := Subtotal(catalog, items);
    var tax := Tax(cfg, subtotal);
    Totals(subtotal, tax, subtotal + tax)
  }

  /** The subtotal of two runs of lines is the sum of their subtotals. */
  lemma {:induction false} SubtotalAppend(catalog: Catalog, a: seq<CartItem>, b: seq<CartItem>)
    ensures Subtotal(catalog, a + b) == Subtotal(catalog, a) + Subtotal(catalog, b)
  {
    if a == [] {
      assert a + b == b;
    } else {
      assert (a + b)[1..] == a[1..] + b;
      SubtotalAppend(catalog, a[1..], b);
    }
  }

  /** A cart's lines are an unordered collection: any reordering of them has
      the same subtotal. */
  lemma {:induction false} SubtotalPermutation(catalog: Catalog, a: seq<CartItem>, b: seq<CartItem>)
    requires multiset(a) == multiset(b)
    ensures Subtotal(catalog, a) == Subtotal(catalog, b)
  {
    if a == [] {
      assert |b| == |multiset(b)| == 0;
    } else {
      var k := Occurrence(b, a[0]);
      var rest := b[..k] + b[k + 1..];
      SameRest(a, b, k);
      SubtotalPermutation(catalog, a[1..], rest);
      SubtotalWithout(catalog, b, k);
    }
  }

  /** A position of `x` in `b`. */
  lemma Occurrence<T>(b: seq<T>, x: T) returns (k: nat)
    requires x in multiset(b)
    ensures k < |b| && b[k] == x
  {
    assert x in b;
    k :| 0 <= k < |b| && b[k] == x;
  }

  /** Taking the first element off `a` and the same element off `b` keeps
      two permutations of each other. */
  lemma SameRest<T>(a: seq<T>, b: seq<T>, k: nat)
    requires multiset(a) == multiset(b) && a != [] && k < |b| && b[k] == a[0]
    ensures multiset(a[1..]) == multiset(b[..k] + b[k + 1..])
  {
    MultisetWithout(b, k);
    assert a == [a[0]] + a[1..];
  }

  lemma SubtotalWithout(catalog: Catalog, b: seq<CartItem>, k: nat)
    requires k < |b|
    ensures Subtotal(catalog, b) == Subtotal(catalog, b[..k] + b[k + 1..]) + LineAmount(catalog, b[k])
  {
    assert b == b[..k] + ([b[k]] + b[k + 1..]);
    SubtotalAppend(catalog, b[..k], [b[k]] + b[k + 1..]);
    assert ([b[k]] + b[k + 1..])[1..] == b[k + 1..];
    SubtotalAppend(catalog, b[..k], b[k + 1..]);
  }

  lemma MultisetWithout<T>(s: seq<T>, k: nat)
    requires k < |s|
    ensures multiset(s[..k] + s[k + 1..]) == multiset(s) - multiset{s[k]}
  {
    assert s == s[..k] + [s[k]] + s[k + 1..];
    calc {
      multiset(s);
      multiset(s[..k] + [s[k]] + s[k + 1..]);
      multiset(s[..k]) + multiset{s[k]} + multiset(s[k + 1..]);
    }
  }

  /** A line whose product is missing adds nothing: the subtotal is that of
      the lines whose product exists. */
  lemma {:induction false} SubtotalSkipsMissing(catalog: Catalog, items: seq<CartItem>)
    ensures Subtotal(catalog, items) == Subtotal(catalog, WithProduct(catalog, items))
  {
    if items != [] {
      SubtotalSkipsMissing(catalog, items[1..]);
      var head := if HasProduct(catalog, items[0]) then [items[0]] else [];
      assert WithProduct(catalog, items) == head + WithProduct(catalog, items[1..]);
      SubtotalAppend(catalog, head, WithProduct(catalog, items[1..]));
    }
  }

  /** Two units at 10.00 and one at 20.00 under the default 8.5 percent rate
      give a subtotal of 40.00, a tax of 3.40 and a total of 43.40. */
  lemma DefaultRateExample(catalog: Catalog, a: CartItem, b: CartItem)
    requires catalog == map[1 := Product(1000, 10), 2 := Product(2000, 10)]
    requires a.productId == 1 && a.quantity == 2 && b.productId == 2 && b.quantity == 1
    ensures CartTotals(catalog, [a, b], DefaultConfig) == Totals(4000, 340, 4340)
  {
    assert [a, b][1..] == [b];
    assert [b][1..] == [];
    assert Subtotal(catalog, [b]) == 2000;
    assert Subtotal(catalog, [a, b]) == 4000;
    assert Tax(DefaultConfig, 4000) == 340;
  }
}

=== FILE: sales.dfy ===
/** The daily sales report: the order lines sold on one day, their totals,
    and the best-selling products of the day. */
module SalesReport {

  import opened Domain
  import opened Seqs

  /** An order takes part in the report of `day` when it is still in status
      placed and was created on that day. */
  predicate CountsOn(o: Order, day: Day) {
    o.status == Placed && o.createdOn == day
  }

  /** getDailySales: the order lines of the orders that count on `day`, in
      order of their rows. */
  function DailySales(orders: seq<Order>, day: Day): seq<OrderLine> {
    if orders == [] then []
    else
      var n := |orders| - 1;
      DailySales(orders[..n], day) + (if CountsOn(orders[n], day) then orders[n].lines else [])
  }

  /** Every line of every order that counts on `day` is in the day's sales. */
  lemma {:induction false} DailySalesIncludes(orders: seq<Order>, day: Day)
    ensures forall i, j :: 0 <= i < |orders| && CountsOn(orders[i], day) && 0 <= j < |orders[i].lines| ==>
      orders[i].lines[j] in DailySales(orders, day)
  {
    if orders != [] {
      var n := |orders| - 1;
      DailySalesIncludes(orders[..n], day);
      forall i, j | 0 <= i < |orders| && CountsOn(orders[i], day) && 0 <= j < |orders[i].lines|
        ensures orders[i].lines[j] in DailySales(orders, day)
      {
        if i < n {
          assert orders[..n][i] == orders[i];
        }
      }
    }
  }

  /** `l` is a line of some order that counts on `day`. */
  predicate FromCountingOrder(orders: seq<Order>, day: Day, l: OrderLine) {
    exists i :: 0 <= i < |orders| && CountsOn(orders[i], day) && l in orders[i].lines
  }

  /** Every line of the day's sales belongs to an order that counts on `day`:
      lines of pending, completed or cancelled orders, and of other days, are
      not reported. */
  lemma {:induction false} DailySalesOnlyCounting(orders: seq<Order>, day: Day)
    ensures forall k :: 0 <= k < |DailySales(orders, day)| ==> FromCountingOrder(orders, day, DailySales(orders, day)[k])
  {
    if orders != [] {
      var n := |orders| - 1;
      var before := DailySales(orders[..n], day);
      var sales := DailySales(orders, day);
      DailySalesOnlyCounting(orders[..n], day);
      forall k | 0 <= k < |sales|
        ensures FromCountingOrder(orders, day, sales[k])
      {
        if k < |before| {
          assert sales[k] == before[k];
          assert FromCountingOrder(orders[..n], day, before[k]);
          var i :| 0 <= i < n && CountsOn(orders[..n][i], day) && before[k] in orders[..n][i].lines;
          assert orders[..n][i] == orders[i];
        } else {
          assert CountsOn(orders[n], day) && sales == before + orders[n].lines;
          assert sales[k] == orders[n].lines[k - |before|];
        }
      }
    }
  }

  /** Units of the orders that count on `day`, order by order. */
  function CountingUnits(orders: seq<Order>, day: Day): int {
    if orders == [] then 0
    else
      var n := |orders| - 1;
      CountingUnits(orders[..n], day) + (if CountsOn(orders[n], day) then UnitsSold(orders[n].lines) else 0)
  }

  /** Revenue of the orders that count on `day`, order by order. */
  function CountingRevenue(orders: seq<Order>, day: Day): Cents {
    if orders == [] then 0
    else
      var n := |orders| - 1;
      CountingRevenue(orders[..n], day) + (if CountsOn(orders[n], day) then Revenue(orders[n].lines) else 0)
  }

  /** Subtotals of the orders that count on `day`, summed. */
  function CountingSubtotals(orders: seq<Order>, day: Day): Cents {
    if orders == [] then 0
    else
      var n := |orders| - 1;
      CountingSubtotals(orders[..n], day) + (if CountsOn(orders[n], day) then orders[n].subtotal else 0)
  }

  /** The day's sales lose no line and count none twice: their units and
      revenue are those of every counting order, summed order by order. */
  lemma {:induction false} DailySalesTotals(orders: seq<Order>, day: Day)
    ensures UnitsSold(DailySales(orders, day)) == CountingUnits(orders, day)
    ensures Revenue(DailySales(orders, day)) == CountingRevenue(orders, day)
  {
    if orders != [] {
      var n := |orders| - 1;
      DailySalesTotals(orders[..n], day);
      var last := if CountsOn(orders[n], day) then orders[n].lines else [];
      UnitsSoldAppend(DailySales(orders[..n], day), last);
      RevenueAppend(DailySales(orders[..n], day), last);
    }
  }

  /** When every order's lines are worth its subtotal, as the lines of an
      order created from a cart are, the day's revenue is the sum of the
      subtotals of the day's placed orders. */
  lemma {:induction false} DailyRevenueIsSubtotals(orders: seq<Order>, day: Day)
    requires forall i :: 0 <= i < |orders| ==> Revenue(orders[i].lines) == orders[i].subtotal
    ensures Revenue(DailySales(orders, day)) == CountingSubtotals(orders, day)
  {
    DailySalesTotals(orders, day);
    CountingRevenueIsSubtotals(orders, day);
  }

  lemma {:induction false} CountingRevenueIsSubtotals(orders: seq<Order>, day: Day)
    requires forall i :: 0 <= i < |orders| ==> Revenue(orders[i].lines) == orders[i].subtotal
    ensures CountingRevenue(orders, day) == CountingSubtotals(orders, day)
  {
    if orders != [] {
      var n := |orders| - 1;
      assert forall i :: 0 <= i < n ==> orders[..n][i] == orders[i];
      CountingRevenueIsSubtotals(orders[..n], day);
    }
  }

  /** Two placed orders of the day that each sell one unit of the same
      product at 10.00 report two units and 20.00: equal lines both count. */
  lemma EqualLinesBothCount()
    ensures var orders := [
        Order(1, 1, "pi_a", Placed, 1000, 0, 1000, 5, [OrderLine(1, 1, 1000)]),
        Order(2, 2, "pi_b", Placed, 1000, 0, 1000, 5, [OrderLine(1, 1, 1000)])];
      UnitsSold(DailySales(orders, 5)) == 2 && Revenue(DailySales(orders, 5)) == 2000
  {
    var orders := [
        Order(1, 1, "pi_a", Placed, 1000, 0, 1000, 5, [OrderLine(1, 1, 1000)]),
        Order(2, 2, "pi_b", Placed, 1000, 0, 1000, 5, [OrderLine(1, 1, 1000)])];
    assert orders[..1][..0] == [] && orders[..2] == orders;
    assert DailySales(orders[..1], 5) == [OrderLine(1, 1, 1000)];
    var sales := DailySales(orders, 5);
    assert sales == [OrderLine(1, 1, 1000), OrderLine(1, 1, 1000)];
    assert sales[..1] == [OrderLine(1, 1, 1000)] && sales[..1][..0] == [];
  }

  // ---------------------------------------------------------------------
  // Grouping per product

  /** One entry of the top products: a product with its units and revenue. */
  datatype ProductSales = ProductSales(productId: ProductId, quantity: int, revenue: Cents)

  /** The lines of `lines` for product `pid`, in order. */
  function SalesOf(lines: seq<OrderLine>, pid: ProductId): seq<OrderLine> {
    Filter(lines, (l: OrderLine) => l.productId == pid)
  }

  /** The products that occur in `lines`. */
  function ProductsIn(lines: seq<OrderLine>): set<ProductId> {
    set k | 0 <= k < |lines| :: lines[k].productId
  }

  /** The products that have an entry in `groups`. */
  function GroupKeys(groups: seq<ProductSales>): set<ProductId> {
    set i | 0 <= i < |groups| :: groups[i].productId
  }

  /** Folds one line into the groups: its product's entry gains the line's
      units and revenue, or a new entry is appended for a product not yet
      seen (so entries stay in order of first appearance). */
  function AddSale(groups: seq<ProductSales>, l: OrderLine): seq<ProductSales> {
    match FirstIndex(groups, (g: ProductSales) => g.productId == l.productId)
    case Some(i) =>
      groups[i := ProductSales(l.productId, groups[i].quantity + l.quantity, groups[i].revenue + l.quantity * l.price)]
    case None =>
      groups + [ProductSales(l.productId, l.quantity, l.quantity * l.price)]
  }

  /** groupBy('product_id') followed by the per-group sums. */
  function GroupByProduct(lines: seq<OrderLine>): seq<ProductSales> {
    if lines == [] then []
    else AddSale(GroupByProduct(lines[..|lines| - 1]), lines[|lines| - 1])
  }

  /** `groups` summarises `lines`: one entry per product that occurs in the
      lines, none for any other, each carrying the units and revenue of that
      product's lines. */
  predicate Summarises(groups: seq<ProductSales>, lines: seq<OrderLine>) {
    && (forall i, j :: 0 <= i < j < |groups| ==> groups[i].productId != groups[j].productId)
    && GroupKeys(groups) == ProductsIn(lines)
    && (forall i :: 0 <= i < |groups| ==>
          groups[i].quantity == UnitsSold(SalesOf(lines, groups[i].productId))
          && groups[i].revenue == Revenue(SalesOf(lines, groups[i].productId)))
  }

  lemma SalesOfSnoc(lines: seq<OrderLine>, l: OrderLine, pid: ProductId)
    ensures SalesOf(lines + [l], pid) == SalesOf(lines, pid) + (if l.productId == pid then [l] else [])
  {
    FilterAppend(lines, [l], (l: OrderLine) => l.productId == pid);
    assert [l][1..] == [];
  }

  lemma {:induction false} SalesOfAbsent(lines: seq<OrderLine>, pid: ProductId)
    requires pid !in ProductsIn(lines)
    ensures SalesOf(lines, pid) == []
  {
    if lines != [] {
      assert lines[0].productId in ProductsIn(lines);
      assert pid !in ProductsIn(lines[1..]) by {
        forall k | 0 <= k < |lines[1..]| ensures lines[1..][k].productId != pid {
          assert lines[1..][k] == lines[k + 1];
        }
      }
      SalesOfAbsent(lines[1..], pid);
    }
  }

  /** A further line adds its units and revenue to its own product's sales
      and nothing to any other product's. */
  lemma SalesTotalsSnoc(lines: seq<OrderLine>, l: OrderLine, pid: ProductId)
    ensures UnitsSold(SalesOf(lines + [l], pid))
      == UnitsSold(SalesOf(lines, pid)) + (if l.productId == pid then l.quantity else 0)
    ensures Revenue(SalesOf(lines + [l], pid))
      == Revenue(SalesOf(lines, pid)) + (if l.productId == pid then l.quantity * l.price else 0)
  {
    SalesOfSnoc(lines, l, pid);
    if l.productId == pid {
      LineTotalsSnoc(SalesOf(lines, pid), l);
    } else {
      assert SalesOf(lines, pid) + [] == SalesOf(lines, pid);
    }
  }

  lemma LineTotalsSnoc(a: seq<OrderLine>, l: OrderLine)
    ensures UnitsSold(a + [l]) == UnitsSold(a) + l.quantity
    ensures Revenue(a + [l]) == Revenue(a) + l.quantity * l.price
  {
    assert (a + [l])[..|a|] == a;
  }

  lemma ProductsInSnoc(lines: seq<OrderLine>, l: OrderLine)
    ensures ProductsIn(lines + [l]) == ProductsIn(lines) + {l.productId}
  {
    var all := lines + [l];
    forall p | p in ProductsIn(all) ensures p in ProductsIn(lines) + {l.productId} {
      var k :| 0 <= k < |all| && all[k].productId == p;
      if k < |lines| {
        assert all[k] == lines[k];
      }
    }
    forall p | p in ProductsIn(lines) ensures p in ProductsIn(all) {
      var k :| 0 <= k < |lines| && lines[k].productId == p;
      assert all[k] == lines[k];
    }
    assert all[|lines|] == l;
  }

  /** Folding a line into a summary of the lines before it summarises the
      extended run of lines. */
  lemma AddSaleKeepsSummary(groups: seq<ProductSales>, lines: seq<OrderLine>, l: OrderLine)
    requires Summarises(groups, lines)
    ensures Summarises(AddSale(groups, l), lines + [l])
  {
    match FirstIndex(groups, (g: ProductSales) => g.productId == l.productId)
    case Some(i) =>
      AddToExisting(groups, lines, l, i);
    case None =>
      assert l.productId !in GroupKeys(groups) by {
        forall j | 0 <= j < |groups| ensures groups[j].productId != l.productId {
        }
      }
      AddNewProduct(groups, lines, l);
  }

  /** A line of a product that already has an entry adds to that entry. */
  lemma AddToExisting(groups: seq<ProductSales>, lines: seq<OrderLine>, l: OrderLine, i: nat)
    requires Summarises(groups, lines)
    requires i < |groups| && groups[i].productId == l.productId
    ensures Summarises(
      groups[i := ProductSales(l.productId, groups[i].quantity + l.quantity, groups[i].revenue + l.quantity * l.price)],
      lines + [l])
  {
    var r := groups[i := ProductSales(l.productId, groups[i].quantity + l.quantity, groups[i].revenue + l.quantity * l.price)];
    var all := lines + [l];
    ProductsInSnoc(lines, l);
    assert GroupKeys(r) == GroupKeys(groups) by {
      SameKeys(groups, r);
    }
    forall j | 0 <= j < |r|
      ensures r[j].quantity == UnitsSold(SalesOf(all, r[j].productId))
      ensures r[j].revenue == Revenue(SalesOf(all, r[j].productId))
    {
      SalesTotalsSnoc(lines, l, r[j].productId);
      if j != i {
        assert r[j] == groups[j];
      }
    }
  }

  lemma SameKeys(groups: seq<ProductSales>, r: seq<ProductSales>)
    requires |r| == |groups|
    requires forall j :: 0 <= j < |groups| ==> r[j].productId == groups[j].productId
    ensures GroupKeys(r) == GroupKeys(groups)
  {
  }

  /** A line of a product without an entry appends a new entry for it. */
  lemma AddNewProduct(groups: seq<ProductSales>, lines: seq<OrderLine>, l: OrderLine)
    requires Summarises(groups, lines)
    requires l.productId !in GroupKeys(groups)
    ensures Summarises(groups + [ProductSales(l.productId, l.quantity, l.quantity * l.price)], lines + [l])
  {
    var g := ProductSales(l.productId, l.quantity, l.quantity * l.price);
    var r := groups + [g];
    var all := lines + [l];
    ProductsInSnoc(lines, l);
    assert GroupKeys(r) == GroupKeys(groups) + {l.productId} by {
      KeysSnoc(groups, g);
    }
    forall j | 0 <= j < |r|
      ensures r[j].quantity == UnitsSold(SalesOf(all, r[j].productId))
      ensures r[j].revenue == Revenue(SalesOf(all, r[j].productId))
    {
      SalesTotalsSnoc(lines, l, r[j].productId);
      if j == |groups| {
        SalesOfAbsent(lines, l.productId);
      } else {
        assert r[j] == groups[j];
        assert groups[j].productId in GroupKeys(groups);
      }
    }
    forall a, b | 0 <= a < b < |r| ensures r[a].productId != r[b].productId {
      if b == |groups| {
        assert r[a] == groups[a];
        assert groups[a].productId in GroupKeys(groups);
      } else {
        assert r[a] == groups[a] && r[b] == groups[b];
      }
    }
  }

  lemma KeysSnoc(groups: seq<ProductSales>, g: ProductSales)
    ensures GroupKeys(groups + [g]) == GroupKeys(groups) + {g.productId}
  {
    var r := groups + [g];
    forall p | p in GroupKeys(r) ensures p in GroupKeys(groups) + {g.productId} {
      var j :| 0 <= j < |r| && r[j].productId == p;
      if j < |groups| {
        assert r[j] == groups[j];
      }
    }
    forall p | p in GroupKeys(groups) ensures p in GroupKeys(r) {
      var j :| 0 <= j < |groups| && groups[j].productId == p;
      assert r[j] == groups[j];
    }
    assert r[|groups|] == g;
  }

  /** The grouping has one entry per product sold, with that product's units
      and revenue. */
  lemma {:induction false} GroupByProductSummarises(lines: seq<OrderLine>)
    ensures Summarises(GroupByProduct(lines), lines)
  {
    if lines != [] {
      var n := |lines| - 1;
      GroupByProductSummarises(lines[..n]);
      AddSaleKeepsSummary(GroupByProduct(lines[..n]), lines[..n], lines[n]);
      assert lines[..n] + [lines[n]] == lines;
    }
  }

  /** Units over all entries of `groups`. */
  function GroupUnits(groups: seq<ProductSales>): int {
    if groups == [] then 0 else groups[0].quantity + GroupUnits(groups[1..])
  }

  /** Revenue over all entries of `groups`. */
  function GroupRevenue(groups: seq<ProductSales>): Cents {
    if groups == [] then 0 else groups[0].revenue + GroupRevenue(groups[1..])
  }

  lemma {:induction false} GroupTotalsSnoc(groups: seq<ProductSales>, g: ProductSales)
    ensures GroupUnits(groups + [g]) == GroupUnits(groups) + g.quantity
    ensures GroupRevenue(groups + [g]) == GroupRevenue(groups) + g.revenue
  {
    if groups == [] {
      assert [] + [g] == [g];
      assert [g][1..] == [];
    } else {
      assert (groups + [g])[1..] == groups[1..] + [g];
      GroupTotalsSnoc(groups[1..], g);
    }
  }

  lemma {:induction false} GroupTotalsUpdate(groups: seq<ProductSales>, i: nat, g: ProductSales)
    requires i < |groups|
    ensures GroupUnits(groups[i := g]) == GroupUnits(groups) - groups[i].quantity + g.quantity
    ensures GroupRevenue(groups[i := g]) == GroupRevenue(groups) - groups[i].revenue + g.revenue
  {
    if i > 0 {
      assert groups[i := g][1..] == groups[1..][i - 1 := g];
      GroupTotalsUpdate(groups[1..], i - 1, g);
    } else {
      assert groups[i := g][1..] == groups[1..];
    }
  }

  /** Grouping loses and invents nothing: the entries add up to the units and
      revenue of all the lines. */
  lemma {:induction false} GroupByProductConserves(lines: seq<OrderLine>)
    ensures GroupUnits(GroupByProduct(lines)) == UnitsSold(lines)
    ensures GroupRevenue(GroupByProduct(lines)) == Revenue(lines)
  {
    if lines != [] {
      var n := |lines| - 1;
      var l := lines[n];
      var groups := GroupByProduct(lines[..n]);
      GroupByProductConserves(lines[..n]);
      match FirstIndex(groups, (g: ProductSales) => g.productId == l.productId)
      case Some(i) =>
        GroupTotalsUpdate(groups, i, ProductSales(l.productId, groups[i].quantity + l.quantity, groups[i].revenue + l.quantity * l.price));
      case None =>
        GroupTotalsSnoc(groups, ProductSales(l.productId, l.quantity, l.quantity * l.price));
    }
  }

  // ---------------------------------------------------------------------
  // Ranking

  /** Entries in non-increasing order of units. */
  predicate SortedDesc(s: seq<ProductSales>) {
    forall i, j :: 0 <= i < j < |s| ==> s[i].quantity >= s[j].quantity
  }

  /** Inserts `g` into a ranking after every entry with at least as many
      units, so that entries with equal units keep their arrival order. */
  function InsertByQuantity(sorted: seq<ProductSales>, g: ProductSales): (r: seq<ProductSales>)
    ensures |r| == |sorted| + 1
    ensures multiset(r) == multiset(sorted) + multiset{g}
  {
    if sorted == [] then [g]
    else
      var n := |sorted| - 1;
      if sorted[n].quantity >= g.quantity then sorted + [g]
      else
        assert sorted == sorted[..n] + [sorted[n]];
        InsertByQuantity(sorted[..n], g) + [sorted[n]]
  }

  /** Inserting into a ranking gives a ranking. */
  lemma {:induction false} InsertKeepsSorted(sorted: seq<ProductSales>, g: ProductSales)
    requires SortedDesc(sorted)
    ensures SortedDesc(InsertByQuantity(sorted, g))
  {
    if sorted != [] {
      var n := |sorted| - 1;
      var last := sorted[n];
      if last.quantity < g.quantity {
        var prefix := sorted[..n];
        SortedPrefix(sorted, n);
        InsertKeepsSorted(prefix, g);
        var front := InsertByQuantity(prefix, g);
        AllAtLeast(prefix, g, last.quantity);
        SnocSorted(front, last);
      } else {
        forall i | 0 <= i < |sorted| ensures sorted[i].quantity >= g.quantity {
        }
        SnocSorted(sorted, g);
      }
    }
  }

  /** Inserting an entry above `bound` into entries at or above `bound`
      gives entries at or above `bound`. */
  lemma AllAtLeast(prefix: seq<ProductSales>, g: ProductSales, bound: int)
    requires forall k :: 0 <= k < |prefix| ==> prefix[k].quantity >= bound
    requires g.quantity >= bound
    ensures forall i :: 0 <= i < |InsertByQuantity(prefix, g)| ==> InsertByQuantity(prefix, g)[i].quantity >= bound
  {
    var front := InsertByQuantity(prefix, g);
    forall i | 0 <= i < |front| ensures front[i].quantity >= bound {
      assert front[i] in multiset(prefix) + multiset{g};
      if front[i] != g {
        assert front[i] in prefix;
      }
    }
  }

  /** Appending an entry with no more units than any entry of a ranking
      gives a ranking. */
  lemma SnocSorted(front: seq<ProductSales>, last: ProductSales)
    requires SortedDesc(front)
    requires forall i :: 0 <= i < |front| ==> front[i].quantity >= last.quantity
    ensures SortedDesc(front + [last])
  {
    var r := front + [last];
    forall i, j | 0 <= i < j < |r| ensures r[i].quantity >= r[j].quantity {
      assert r[i] == front[i];
      if j < |front| {
        assert r[j] == front[j];
      }
    }
  }

  /** sortByDesc('quantity'): a stable insertion sort, best seller first. */
  function SortByQuantityDesc(groups: seq<ProductSales>): (r: seq<ProductSales>)
    ensures |r| == |groups|
    ensures SortedDesc(r)
    ensures multiset(r) == multiset(groups)
  {
    if groups == [] then []
    else
      var n := |groups| - 1;
      assert groups == groups[..n] + [groups[n]];
      var rest := SortByQuantityDesc(groups[..n]);
      InsertKeepsSorted(rest, groups[n]);
      InsertByQuantity(rest, groups[n])
  }

  /** The report keeps at most this many products. */
  const TopProductsLimit := 10

  /** take(10) of the ranking. */
  function TopProducts(groups: seq<ProductSales>): seq<ProductSales> {
    var sorted := SortByQuantityDesc(groups);
    if |sorted| <= TopProductsLimit then sorted else sorted[..TopProductsLimit]
  }

  /** The top entries are ranked, there are ten of them or all of them when
      fewer, they are entries of the grouping, and no entry left out sold
      more units than any entry kept. */
  lemma TopProductsSelect(groups: seq<ProductSales>)
    ensures var top := TopProducts(groups);
      && SortedDesc(top)
      && |top| == (if |groups| <= TopProductsLimit then |groups| else TopProductsLimit)
      && multiset(top) <= multiset(groups)
      && forall g, i :: g in multiset(groups) - multiset(top) && 0 <= i < |top| ==> g.quantity <= top[i].quantity
  {
    var sorted := SortByQuantityDesc(groups);
    var top := TopProducts(groups);
    assert sorted == top + sorted[|top|..];
    assert SortedDesc(top) by {
      SortedPrefix(sorted, |top|);
    }
    assert multiset(groups) == multiset(top) + multiset(sorted[|top|..]);
    RestRankedBelow(sorted, |top|);
  }

  lemma SortedPrefix(sorted: seq<ProductSales>, k: nat)
    requires SortedDesc(sorted) && k <= |sorted|
    ensures SortedDesc(sorted[..k])
  {
    assert forall i, j :: 0 <= i < j < k ==> sorted[..k][i] == sorted[i] && sorted[..k][j] == sorted[j];
  }

  /** In a ranking, whatever comes after the first `k` entries has no more
      units than any of them. */
  lemma RestRankedBelow(sorted: seq<ProductSales>, k: nat)
    requires SortedDesc(sorted) && k <= |sorted|
    ensures forall g, i :: g in multiset(sorted[k..]) && 0 <= i < k ==> g.quantity <= sorted[i].quantity
  {
    forall g, i | g in multiset(sorted[k..]) && 0 <= i < k
      ensures g.quantity <= sorted[i].quantity
    {
      var j :| 0 <= j < |sorted[k..]| && sorted[k..][j] == g;
      assert sorted[k + j] == g;
    }
  }

  // ---------------------------------------------------------------------
  // The report

  /** The data the daily report mail carries. */
  datatype DailyReport = DailyReport(date: Day, totalProductsSold: int, totalRevenue: Cents, topProducts: seq<ProductSales>)

  /** aggregateDailySales: the units and revenue of all lines sold on `day`,
      and the ten best-selling products of the day with their units and
      revenue. */
  method AggregateDailySales(orders: seq<Order>, day: Day) returns (report: DailyReport)
    ensures report.date == day
    ensures report.totalProductsSold == UnitsSold(DailySales(orders, day))
    ensures report.totalRevenue == Revenue(DailySales(orders, day))
    ensures report.totalProductsSold == CountingUnits(orders, day) && report.totalRevenue == CountingRevenue(orders, day)
    ensures var sales := DailySales(orders, day);
      var top := report.topProducts;
      && SortedDesc(top)
      && |top| == (if |ProductsIn(sales)| <= TopProductsLimit then |ProductsIn(sales)| else TopProductsLimit)
      && (forall i :: 0 <= i < |top| ==>
            top[i].productId in ProductsIn(sales)
            && top[i].quantity == UnitsSold(SalesOf(sales, top[i].productId))
            && top[i].revenue == Revenue(SalesOf(sales, top[i].productId)))
      && (forall i, j :: 0 <= i < j < |top| ==> top[i].productId != top[j].productId)
      && (forall p, i :: p in ProductsIn(sales) && p !in GroupKeys(top) && 0 <= i < |top| ==>
            UnitsSold(SalesOf(sales, p)) <= top[i].quantity)
  {
    var sales := DailySales(orders, day);
    var units, revenue := LineTotals(sales);
    TopProductsOfDay(sales);
    DailySalesTotals(orders, day);
    report := DailyReport(day, units, revenue, TopProducts(GroupByProduct(sales)));
  }

  /** The units and revenue of a run of lines, summed line by line. */
  method LineTotals(sales: seq<OrderLine>) returns (units: int, revenue: Cents)
    ensures units == UnitsSold(sales) && revenue == Revenue(sales)
  {
    units := 0;
    revenue := 0;
    var k := 0;
    while k < |sales|
      invariant 0 <= k <= |sales|
      invariant units == UnitsSold(sales[..k])
      invariant revenue == Revenue(sales[..k])
    {
      assert sales[..k + 1][..k] == sales[..k];
      units := units + sales[k].quantity;
      revenue := revenue + sales[k].quantity * sales[k].price;
      k := k + 1;
    }
    assert sales[..k] == sales;
  }

  /** The top entries of a day's lines: ranked, ten of them or one per
      product sold when fewer, each with its product's units and revenue,
      no product twice, and no product left out that sold more units than
      one kept. */
  lemma TopProductsOfDay(sales: seq<OrderLine>)
    ensures var top := TopProducts(GroupByProduct(sales));
      && SortedDesc(top)
      && |top| == (if |ProductsIn(sales)| <= TopProductsLimit then |ProductsIn(sales)| else TopProductsLimit)
      && (forall i :: 0 <= i < |top| ==>
            top[i].productId in ProductsIn(sales)
            && top[i].quantity == UnitsSold(SalesOf(sales, top[i].productId))
            && top[i].revenue == Revenue(SalesOf(sales, top[i].productId)))
      && (forall i, j :: 0 <= i < j < |top| ==> top[i].productId != top[j].productId)
      && (forall p, i :: p in ProductsIn(sales) && p !in GroupKeys(top) && 0 <= i < |top| ==>
            UnitsSold(SalesOf(sales, p)) <= top[i].quantity)
  {
    var groups := GroupByProduct(sales);
    var top := TopProducts(groups);
    GroupByProductSummarises(sales);
    assert SortedDesc(top) && |top| == (if |groups| <= TopProductsLimit then |groups| else TopProductsLimit) by {
      TopProductsSelect(groups);
    }
    TopEntriesAreGroups(groups, sales);
    LeftOutSoldNoMore(groups, sales);
  }

  lemma TopEntriesAreGroups(groups: seq<ProductSales>, sales: seq<OrderLine>)
    requires Summarises(groups, sales)
    ensures |ProductsIn(sales)| == |groups|
    ensures var top := TopProducts(groups);
      && (forall i :: 0 <= i < |top| ==>
            top[i].productId in ProductsIn(sales)
            && top[i].quantity == UnitsSold(SalesOf(sales, top[i].productId))
            && top[i].revenue == Revenue(SalesOf(sales, top[i].productId)))
      && (forall i, j :: 0 <= i < j < |top| ==> top[i].productId != top[j].productId)
  {
    var top := TopProducts(groups);
    var sorted := SortByQuantityDesc(groups);
    KeysOfDistinct(groups);
    forall i | 0 <= i < |top|
      ensures top[i].productId in ProductsIn(sales)
      ensures top[i].quantity == UnitsSold(SalesOf(sales, top[i].productId))
      ensures top[i].revenue == Revenue(SalesOf(sales, top[i].productId))
    {
      assert top[i] == sorted[i];
      assert sorted[i] in multiset(groups);
      EntryOfSummary(groups, sales, top[i]);
    }
    forall i, j | 0 <= i < j < |top| ensures top[i].productId != top[j].productId {
      assert top[i] == sorted[i] && top[j] == sorted[j];
      SortedOfDistinctKeys(groups, i, j);
    }
  }

  /** A product of the day that did not make the top entries sold no more
      units than any product that did. */
  lemma LeftOutSoldNoMore(groups: seq<ProductSales>, sales: seq<OrderLine>)
    requires Summarises(groups, sales)
    ensures var top := TopProducts(groups);
      forall p, i :: p in ProductsIn(sales) && p !in GroupKeys(top) && 0 <= i < |top| ==>
        UnitsSold(SalesOf(sales, p)) <= top[i].quantity
  {
    var top := TopProducts(groups);
    TopProductsSelect(groups);
    forall p, i | p in ProductsIn(sales) && p !in GroupKeys(top) && 0 <= i < |top|
      ensures UnitsSold(SalesOf(sales, p)) <= top[i].quantity
    {
      assert p in GroupKeys(groups);
      var j :| 0 <= j < |groups| && groups[j].productId == p;
      var g := groups[j];
      assert g in multiset(groups);
      assert g !in multiset(top) by {
        forall k | 0 <= k < |top| ensures top[k] != g {
          assert top[k].productId in GroupKeys(top);
        }
      }
      assert g in multiset(groups) - multiset(top);
    }
  }

  /** Each entry of a summary carries its product's units and revenue. */
  lemma EntryOfSummary(groups: seq<ProductSales>, sales: seq<OrderLine>, e: ProductSales)
    requires Summarises(groups, sales) && e in groups
    ensures e.productId in ProductsIn(sales)
    ensures e.quantity == UnitsSold(SalesOf(sales, e.productId)) && e.revenue == Revenue(SalesOf(sales, e.productId))
  {
    var j :| 0 <= j < |groups| && groups[j] == e;
    assert e.productId in GroupKeys(groups);
  }

  /** Entries with distinct products are as many as their products. */
  lemma KeysOfDistinct(groups: seq<ProductSales>)
    requires forall i, j :: 0 <= i < j < |groups| ==> groups[i].productId != groups[j].productId
    ensures |GroupKeys(groups)| == |groups|
  {
    var ids := seq(|groups|, i requires 0 <= i < |groups| => groups[i].productId);
    assert Distinct(ids);
    DistinctElements(ids);
    forall p | p in Elements(ids) ensures p in GroupKeys(groups) {
      var i :| 0 <= i < |ids| && ids[i] == p;
    }
    forall p | p in GroupKeys(groups) ensures p in Elements(ids) {
      var i :| 0 <= i < |groups| && groups[i].productId == p;
      assert ids[i] == p;
    }
    assert Elements(ids) == GroupKeys(groups);
  }

  /** Two positions of the ranking of entries with distinct products hold
      distinct products. */
  lemma SortedOfDistinctKeys(groups: seq<ProductSales>, i: nat, j: nat)
    requires forall a, b :: 0 <= a < b < |groups| ==> groups[a].productId != groups[b].productId
    requires i < j < |SortByQuantityDesc(groups)|
    ensures SortByQuantityDesc(groups)[i].productId != SortByQuantityDesc(groups)[j].productId
  {
    var sorted := SortByQuantityDesc(groups);
    MultisetDistinctKeys(groups, sorted, i, j);
  }

  /** A permutation of entries with distinct products has distinct products. */
  lemma MultisetDistinctKeys(groups: seq<ProductSales>, s: seq<ProductSales>, i: nat, j: nat)
    requires forall a, b :: 0 <= a < b < |groups| ==> groups[a].productId != groups[b].productId
    requires multiset(s) == multiset(groups)
    requires i < j < |s|
    ensures s[i].productId != s[j].productId
  {
    assert s[i] in multiset(groups) && s[j] in multiset(groups);
    var a :| 0 <= a < |groups| && groups[a] == s[i];
    var b :| 0 <= b < |groups| && groups[b] == s[j];
    if a == b {
      // The same entry twice in s would occur twice in groups.
      assert s == s[..j] + [s[j]] + s[j + 1..];
      assert multiset(s)[s[i]] >= 2 by {
        assert s[..j] == s[..i] + [s[i]] + s[i + 1..j];
      }
      OccursOnce(groups, a);
    }
  }

  /** In entries with distinct products, each entry occurs once. */
  lemma {:induction false} OccursOnce(groups: seq<ProductSales>, a: nat)
    requires forall x, y :: 0 <= x < y < |groups| ==> groups[x].productId != groups[y].productId
    requires a < |groups|
    ensures multiset(groups)[groups[a]] == 1
  {
    var rest := groups[..a] + groups[a + 1..];
    assert groups == groups[..a] + [groups[a]] + groups[a + 1..];
    assert groups[a] !in rest by {
      forall k | 0 <= k < |rest| ensures rest[k] != groups[a] {
        if k < a {
          assert rest[k] == groups[k];
        } else {
          assert rest[k] == groups[k + 1];
        }
      }
    }
    assert multiset(groups) == multiset(rest) + multiset{groups[a]};
  }

  /** The figures of the report example: two units at 10.00 and one at 20.00,
      placed on the report day, make three units and 40.00; an order of
      another day and a pending order are not counted. */
  lemma ReportExample()
    ensures var orders := [
        Order(1, 1, "pi_test_1", Placed, 2000, 0, 2000, 5, [OrderLine(1, 2, 1000)]),
        Order(2, 1, "pi_test_2", Placed, 2000, 0, 2000, 5, [OrderLine(2, 1, 2000)]),
        Order(3, 1, "pi_test_3", Placed, 1000, 0, 1000, 6, [OrderLine(1, 1, 1000)]),
        Order(4, 1, "pi_test_4", Pending, 1000, 0, 1000, 5, [OrderLine(1, 1, 1000)])];
      var sales := DailySales(orders, 5);
      UnitsSold(sales) == 3 && Revenue(sales) == 4000
  {
    var orders := [
        Order(1, 1, "pi_test_1", Placed, 2000, 0, 2000, 5, [OrderLine(1, 2, 1000)]),
        Order(2, 1, "pi_test_2", Placed, 2000, 0, 2000, 5, [OrderLine(2, 1, 2000)]),
        Order(3, 1, "pi_test_3", Placed, 1000, 0, 1000, 6, [OrderLine(1, 1, 1000)]),
        Order(4, 1, "pi_test_4", Pending, 1000, 0, 1000, 5, [OrderLine(1, 1, 1000)])];
    assert orders[..3] == orders[..4][..3] && orders[..4] == orders;
    assert orders[..3][..2] == orders[..2] && orders[..2][..1] == orders[..1] && orders[..1][..0] == [];
    assert DailySales(orders[..1], 5) == [OrderLine(1, 2, 1000)];
    assert DailySales(orders[..2], 5) == [OrderLine(1, 2, 1000), OrderLine(2, 1, 2000)];
    assert DailySales(orders[..3], 5) == [OrderLine(1, 2, 1000), OrderLine(2, 1, 2000)];
    var sales := DailySales(orders, 5);
    assert sales == [OrderLine(1, 2, 1000), OrderLine(2, 1, 2000)];
    assert sales[..1] == [OrderLine(1, 2, 1000)];
    assert sales[..1][..0] == [];
  }
}

=== FILE: seqs.dfy ===
/** Generic sequence helpers shared by the services: filtering rows of a
    table and finding the first row that matches a query. */
module Seqs {

  datatype Option<+T> = None | Some(value: T) {
    /** The value as a sequence of at most one element. */
    function ToSeq(): (r: seq<T>)
      ensures |r| <= 1
      ensures Some? ==> r == [value]
      ensures None? ==> r == []
    {
      if Some? then [value] else []
    }
  }

  /** The elements of `s` that satisfy `p`, in their original order
      (a `where` clause over an ordered table). */
  function Filter<T>(s: seq<T>, p: T -> bool): (r: seq<T>)
    ensures |r| <= |s|
    ensures forall i :: 0 <= i < |r| ==> r[i] in s && p(r[i])
    ensures forall i :: 0 <= i < |s| && p(s[i]) ==> s[i] in r
  {
    if s == [] then [] else (if p(s[0]) then [s[0]] else []) + Filter(s[1..], p)
  }

  /** Filtering keeps every pairwise relation that held between earlier and
      later elements of the input: it never reorders. */
  lemma {:induction false} FilterKeepsOrder<T>(s: seq<T>, p: T -> bool, R: (T, T) -> bool)
    requires forall i, j :: 0 <= i < j < |s| ==> R(s[i], s[j])
    ensures forall i, j :: 0 <= i < j < |Filter(s, p)| ==> R(Filter(s, p)[i], Filter(s, p)[j])
  {
    if s != [] {
      var tail := Filter(s[1..], p);
      FilterKeepsOrder(s[1..], p, R);
      if p(s[0]) {
        var r := Filter(s, p);
        assert r == [s[0]] + tail;
        forall i, j | 0 <= i < j < |r|
          ensures R(r[i], r[j])
        {
          if i == 0 {
            assert r[j] in s[1..];
            var k :| 0 <= k < |s[1..]| && s[1..][k] == r[j];
            assert s[k + 1] == r[j];
          } else {
            assert r[i] == tail[i - 1] && r[j] == tail[j - 1];
          }
        }
      }
    }
  }

  /** Filtering a concatenation filters each part. */
  lemma {:induction false} FilterAppend<T>(a: seq<T>, b: seq<T>, p: T -> bool)
    ensures Filter(a + b, p) == Filter(a, p) + Filter(b, p)
  {
    if a == [] {
      assert a + b == b;
    } else {
      assert (a + b)[1..] == a[1..] + b;
      FilterAppend(a[1..], b, p);
    }
  }

  /** Filtering keeps every copy of an element that passes and no copy of
      one that does not. */
  lemma {:induction false} FilterCounts<T>(s: seq<T>, p: T -> bool)
    ensures forall x :: multiset(Filter(s, p))[x] == if p(x) then multiset(s)[x] else 0
  {
    if s != [] {
      FilterCounts(s[1..], p);
      assert s == [s[0]] + s[1..];
      assert Filter(s, p) == (if p(s[0]) then [s[0]] else []) + Filter(s[1..], p);
    }
  }

  /** Filtering keeps every element when all of them pass. */
  lemma {:induction false} FilterAllKept<T>(s: seq<T>, p: T -> bool)
    requires forall j :: 0 <= j < |s| ==> p(s[j])
    ensures Filter(s, p) == s
  {
    if s != [] {
      FilterAllKept(s[1..], p);
      assert s == [s[0]] + s[1..];
    }
  }

  /** Index of the first element of `s` that satisfies `p`, if there is one. */
  function FirstIndex<T>(s: seq<T>, p: T -> bool): (r: Option<nat>)
    ensures r.Some? ==> r.value < |s| && p(s[r.value])
    ensures r.Some? ==> forall j :: 0 <= j < r.value ==> !p(s[j])
    ensures r.None? ==> forall j :: 0 <= j < |s| ==> !p(s[j])
  {
    if s == [] then None
    else if p(s[0]) then Some(0)
    else match FirstIndex(s[1..], p)
      case None => None
      case Some(k) => Some(k + 1)
  }

  /** No element occurs twice in `s`. */
  predicate Distinct<T(==)>(s: seq<T>) {
    forall i, j :: 0 <= i < j < |s| ==> s[i] != s[j]
  }

  /** The elements of `s`, as a set. */
  function Elements<T>(s: seq<T>): set<T> {
    set i | 0 <= i < |s| :: s[i]
  }

  /** A sequence without repetitions has as many elements as its set. */
  lemma {:induction false} DistinctElements<T>(s: seq<T>)
    requires Distinct(s)
    ensures |Elements(s)| == |s|
  {
    if s != [] {
      assert Distinct(s[1..]) by {
        forall i, j | 0 <= i < j < |s[1..]| ensures s[1..][i] != s[1..][j] {
          assert s[1..][i] == s[i + 1] && s[1..][j] == s[j + 1];
        }
      }
      DistinctElements(s[1..]);
      assert Elements(s) == {s[0]} + Elements(s[1..]) by {
        forall x | x in Elements(s) ensures x in {s[0]} + Elements(s[1..]) {
          var i :| 0 <= i < |s| && s[i] == x;
          if i > 0 { assert s[1..][i - 1] == x; }
        }
        forall x | x in Elements(s[1..]) ensures x in Elements(s) {
          var i :| 0 <= i < |s[1..]| && s[1..][i] == x;
          assert s[i + 1] == x;
        }
      }
      assert s[0] !in Elements(s[1..]) by {
        forall i | 0 <= i < |s[1..]| ensures s[1..][i] != s[0] {
          assert s[1..][i] == s[i + 1];
        }
      }
    }
  }
}
